=== FILE: README.md ===
# Sâm Lốc game engine in Dafny

A model of the game engine of a Sâm Lốc server. Sâm Lốc is a Vietnamese shedding card game for two to five players. Each player is dealt ten cards and players take turns topping the combination on the table. The first player to run out of cards wins the round.

The model covers three parts of the engine:

- **The combination rules** (module `Rules`). `Classify` turns a set of cards into a SINGLE, PAIR, TRIPLE, QUAD or STRAIGHT, or into a refusal reason. `CanBeat` decides whether a combination tops the one on the table.
  - Straights are tried under the primary order 3 … K, A, 2 and then under the alternate order A, 2, 3 … K.
  - Any mixed set holding K, A and 2 is refused.
  - A QUAD "cuts" a single 2 or a pair of 2s.
- **Round scoring** (module `Scoring`):
  - the winner, and each loser's loss;
  - the flat rate when the Sâm declarer wins;
  - the Báo-1 ("last card") override, in which the offender pays the whole pot;
  - the score sheet, proved zero-sum.
- **The room** (module `Room`). The room moves through the phases LOBBY → DECLARE_SAM → PLAYING → ROUND_END. It covers:
  - seating;
  - dealing ten cards each from a given shuffled deck, with instant "white wins";
  - the Sâm declaration window and its resolution;
  - the turn pointer that skips players who passed, and passing and clearing the trick;
  - playing cards, including the Báo-1 watch, the points moved by cutting a 2, and catching the Sâm declarer;
  - adding the round's scores to the points.

  Every command is a pure function from a room to a reply and a new room. A refused command returns the room unchanged.

Supporting modules:

- `Base`: Option, Result and refusal reasons, and duplicate-free sequences.
- `Cards`: ranks, the two orders, sorting and the deck.
- `Ledger`: point maps, their total, and transfers.
- `Hands`: selecting and dropping cards, the highest single, and the white-win hands.
- `Dealing`: the deal as ten passes round the table.

`RoomProps` holds the room's well-formedness invariant `Valid` and the properties of the commands. It also states two whole-game results:

- every command keeps `Valid` and, with the corrected Sâm penalty (see "## Findings"), the total of all points;
- so, with the corrected Sâm penalty, after any sequence of commands from a new room the balances of everybody who ever sat down sum to zero (`ZeroSumGame`). room.js as written can break this, as "## Findings" shows.

The turn lemmas show how the pointer moves:

- it stops at the first seat after the current one whose player has not passed;
- when everybody has passed, it stops two seats on.

Modelling choices:

- A card is identified by its value, because room.js's card id (rank followed by suit) determines the card. An id naming no card in the hand behaves like any other card not in the hand.
- Player ids are non-empty strings, so the engine's truthiness tests become `Option` tests.
- The clock is a parameter `now`. The declaration deadline is `now + 15000`.
- The shuffled deck is a parameter. Where a proof needs it, the deck is required to be a permutation of the fresh deck (`IsShuffled`).
- Messages become abstract `Event` values.
- The `ROOM_FULL` exception of `addPlayer` becomes the refusal `RoomFull`.

## Model

| member | source | states |
|---|---|---|
| `Cards.RankValue` | rules.js:1-2 | a rank's value is its position in the primary order 3 … K, A, 2 |
| `Cards.SortByPermutation` | rules.js:4-6 | sorting by rank depends only on the multiset of ranks: permutations sort to the same sequence |
| `Cards.MakeDeckComplete` | room.js:8-14 | the fresh deck contains every card |
| `Cards.MakeDeckDistinct` | room.js:8-14 | the fresh deck holds no card twice |
| `Cards.ShuffledDeck` | room.js:15-21 | any permutation of the fresh deck has 52 distinct cards |
| `Rules.Classify` | rules.js:8-103 | EMPTY exactly for no cards; an accepted combination has as many cards as were given and a rank among them; SINGLE only for one card; refusals are only classifier reasons |
| `Rules.ClassifyOne` | rules.js:18 | one card is a SINGLE of its rank with length 1 |
| `Rules.ClassifyNonStraight` | rules.js:17-26 | every non-straight combination is cards of its one rank, and SINGLE is exactly the one-card case |
| `Rules.ClassifySameRank` | rules.js:21-26 | cards of one rank are a PAIR, TRIPLE or QUAD for 2, 3 or 4 cards; more than four is INVALID_SET |
| `Rules.ClassifyTwoDifferent` | rules.js:101-102 | two cards of different ranks are INVALID_COMBO |
| `Rules.ClassifyKa2` | rules.js:29-33 | three or more cards of several ranks containing K, A and 2 are KA2_NOT_ALLOWED, whatever else they are |
| `Rules.ClassifyStraight` | rules.js:35-98 | a STRAIGHT topped by t is accepted iff there are at least three cards without K-A-2 whose ranks are consecutive with top t under the primary order or, failing that, under the alternate order |
| `Rules.ClassifyNoRun` | rules.js:35-98 | three or more mixed cards without K-A-2 whose ranks are consecutive under neither order (a repeated rank or a gap) are INVALID_STRAIGHT |
| `Rules.AlternateStraight` | rules.js:68-88 | ranks consecutive only under the alternate order form a straight topped by their alternate-order top |
| `Rules.StraightQueenKingAce` | rules.js:36-47 | Q-K-A is a straight topped by A |
| `Rules.StraightTwoThreeFour` | rules.js:68-88 | 2-3-4 is a straight topped by 4 |
| `Rules.StraightAceTwoThree` | rules.js:68-88 | A-2-3 is a straight topped by 3 |
| `Rules.StraightThreeThreeFour` | rules.js:98 | 3-3-4 is INVALID_STRAIGHT |
| `Rules.StraightThreeFiveSeven` | rules.js:98 | 3-5-7 is INVALID_STRAIGHT |
| `Rules.StepsByOneIsEvery` | rules.js:91-96 | the third straight test is the loop test of the first written differently, so it accepts nothing new |
| `Rules.ClassifyPermutation` | rules.js:11-15 | permuting the cards never changes the classification |
| `Rules.CanBeat` | rules.js:105-126 | an empty table accepts anything; a non-QUAD beats the table iff it has the same type, the same length for straights, and a strictly greater rank value |
| `Rules.QuadBeats` | rules.js:109-116 | a QUAD beats a single 2, a pair of 2s, or a strictly lower QUAD, and nothing else |
| `Rules.CanBeatAsymmetric` | rules.js:118-125 | no combination beats an equal one of its own type, and of two combinations at most one beats the other |
| `Rules.CanBeatNotTransitive` | rules.js:105-126 | beating is not transitive: A < 2 and 2 < a QUAD of 5, but that QUAD does not beat an A |
| `Scoring.Winner` | scoring.js:3-10 | the winner is the first roster player with an empty hand, else the first roster player, and none only for an empty roster |
| `Scoring.LossBounds` | scoring.js:25-37 | a normal loss is between one and three points per card plus the never-played penalty; a Sâm-win loss is exactly 20 |
| `Scoring.ComputeRoundScores` | scoring.js:1-68 | without the override the sheet has an entry for exactly the roster, losers are at most 0 and the winner at least 0; with it, the offender is added |
| `Scoring.NormalScores` | scoring.js:16-65 | without the override a loser pays 20 on a Sâm win, else cards held + 2 per 2 held + 10 if they never played, and the winner gets the pot |
| `Scoring.Bao1Scores` | scoring.js:43-58 | with the override the winner gets the pot, the offender pays it, and everyone else gets 0 |
| `Scoring.ScoresZeroSum` | scoring.js:43-65 | the sheet sums to zero on a duplicate-free roster when the offender is not the Báo-1 player |
| `Ledger.Transfer` | room.js:327-328 | moving an amount changes the two balances by opposite amounts, leaves the others alone and keeps the total |
| `Ledger.TotalCreditEach` | room.js:269-271 | crediting each of k players with v raises the total by k·v |
| `Ledger.TotalApplyDeltas` | room.js:442-444 | adding a score sheet raises the total by the sheet's sum |
| `Hands.Select` | room.js:293-296 | the chosen cards are exactly the hand's cards that were named |
| `Hands.Drop` | room.js:371 | the remaining cards are exactly the hand's cards that were not named |
| `Hands.SelectDropSplit` | room.js:369-371 | chosen and remaining cards together are the hand as a multiset |
| `Hands.SelectAccepted` | room.js:293-297 | for a duplicate-free hand the length test passes iff the ids are duplicate-free and all in the hand |
| `Hands.HighestIsFirstMaximal` | room.js:42-50 | the highest single card is the first card of maximal rank value, and no other position is |
| `Hands.HighestCard` | room.js:42-50 | there is no highest card only for an empty hand, and otherwise it is in the hand |
| `Hands.WhiteWinPermutation` | room.js:24-35 | whether a hand is four 2s, a ten-card straight or exactly five pairs does not depend on card order |
| `Dealing.DealAt` | room.js:160-165 | after the deal, seat k holds every n-th popped card starting with the k-th |
| `Dealing.ColumnsDisjoint` | room.js:160-165 | from distinct cards each seat's cards are distinct and two seats share none |
| `Room.NewRoom` | room.js:53-96 | a new room is an empty lobby with the given seat limit, no host, hands, points, last winner or last turn, an empty trick and no Sâm or Báo-1 |
| `Room.TurnId` | room.js:100 | the turn player exists iff the pointer is on a seat, and is then the player in that seat |
| `Room.AddPlayer` | room.js:102-111 | ROOM_FULL iff a new player meets a full room, and then nothing changes; a seated player changes nothing; a joiner is appended, may become host and keeps any old balance and hand entry; the other hands, flags, phase, trick, Sâm and Báo-1 records are kept |
| `Room.ResetTrick` | room.js:126-129 | the table and passes are cleared and nothing else changes |
| `Room.NewRound` | room.js:131-144 | back to the lobby with no trick, passes, Sâm, Báo-1, declaration answers or last turn; when forced every seated hand is empty and other hands are kept, otherwise all hands are kept; seats, host, points, seat limit and last winner are kept |
| `Room.Unseat` | room.js:114-121 | the player leaves the seats, hands, flags, passes and declaration answers; the host moves to the first remaining seat only if it left; the pointer resets to 0 only if it fell off the end; nothing else changes |
| `Room.RemovePlayer` | room.js:113-124 | the player and their hand, flag, pass and declaration answer leave; points, seat limit and last winner stay; the pointer is kept while it is still on a seat, else reset to 0; the host is kept unless it left, then moves to the first seat; other players' hands are kept; with two or more left nothing else changes, under two the room returns to the lobby with empty hands |
| `Room.StartGame` | room.js:146-201 | ALREADY_STARTED iff started, NEED_2_PLAYERS iff fewer than two, with the room unchanged; on success the deal, the cleared trick, the reset flags, the opening turn and the deadline now + 15000; the last turn is cleared and the seats, host, points, seat limit and last winner are kept; a white win also ends the round and records the winner |
| `Room.OpeningTurn` | room.js:176-186 | the last winner leads if still seated, else seat 0 |
| `Room.DeclareSamCmd` | room.js:203-208 | NOT_DECLARE_PHASE outside the window and NOT_IN_ROOM for a stranger, with the room unchanged; otherwise only the player's answer is recorded |
| `Room.TickDeclarePhase` | room.js:210-228 | false and no change outside the window or before the deadline; otherwise play begins with players, points and hands unchanged |
| `Room.AdvanceTurn` | room.js:250-258 | only the turn pointer moves, and it lands on a seat |
| `Room.Pass` | room.js:230-248 | NOT_PLAYING, NOT_YOUR_TURN and CANNOT_PASS_ON_EMPTY each in exactly its case, with the room unchanged; a pass moves no points or cards |
| `Room.ApplySamPenalty` | room.js:260-275 | corrected penalty: applied at most once, changes only points and the Sâm record, and keeps the total |
| `Room.ApplySamPenaltyAsWritten` | room.js:260-275 | the penalty as written: applied at most once and changes only points and the Sâm record |
| `Room.ApplySamReward` | room.js:277-284 | the reward flag is set iff Sâm is active, not failed, not yet rewarded and has a declarer; nothing else changes |
| `Room.PlayChecks` | room.js:289-303 | an accepted play names cards that are all in the hand, classifies them and beats the table |
| `Room.WatchBao1` | room.js:305-321 | a warning iff the Báo-1 watch is on, the player is the one watched, plays a single and it is not their highest card; it then records the offender |
| `Room.CutAmount` | room.js:323-339 | a QUAD over a single 2 cuts exactly 5 and over a pair of 2s exactly 10; every other play cuts nothing |
| `Room.CutTwo` | room.js:323-339 | the cut moves from the previous holder to the player, nobody else changes, and the total is kept |
| `Room.Penalties` | room.js:305-339 | before the cards move only the Báo-1 record and the points change |
| `Room.CatchSam` | room.js:341-365 | catching the declarer ends the round with no hand reduced, the declaration failed and the catcher's cards shown; with the corrected Sâm penalty the total is kept |
| `Room.PlayCards` | room.js:369-417 | the cards leave the hand and go on the table; one card left opens the Báo-1 watch; the player wins iff no card is left, which may trigger the override |
| `Room.Play` | room.js:286-418 | refused iff a check fails, and then nothing changes; with the corrected Sâm penalty the total of points is kept |
| `Room.FinishAndScore` | room.js:420-446 | only points change; the returned winner is the score sheet's winner, seated, and absent only for an empty roster; every balance moves by exactly its entry on the score sheet, and every seated player gets a balance |
| `RoomProps.NextTurnFirstUnpassed` | room.js:250-258 | the pointer stops at the first seat after the start whose player has not passed |
| `RoomProps.NextTurnAllPassed` | room.js:250-258 | when everybody has passed the loop gives up two seats after the start |
| `RoomProps.NextTurnUnpassed` | room.js:250-258 | if somebody has not passed, the turn goes to a player who has not |
| `RoomProps.PassEffect` | room.js:235-245 | a pass that leaves only the holder clears the trick and gives the holder the lead; any other pass records the pass and moves to a player still in the trick |
| `RoomProps.DeclareLastAnswerWins` | room.js:206 | answering twice counts only the second answer |
| `RoomProps.TickChoosesFirst` | room.js:214-221 | when the window closes the first seated player who said yes becomes the declarer and leads |
| `RoomProps.TickNoDeclarer` | room.js:222-226 | with no yes, only the phase changes |
| `RoomProps.SamPenaltyPoints` | room.js:265-271 | a seated caught declarer pays 20 per other player and each other player gains 20 |
| `RoomProps.SamPenaltyAgrees` | room.js:260-275 | with the declarer seated, the penalty as written and the corrected one coincide |
| `RoomProps.SamPenaltyAsWrittenInflates` | room.js:265-271 | the penalty as written, with the declarer gone, raises the total by 20 |
| `RoomProps.DeclarerLeavesAndIsCaught` | room.js:344-350 | a declarer holding the table who leaves a room of three can still be caught, and then the penalty as written inflates the total while the corrected one does not |
| `RoomProps.FinishConserves` | room.js:420-446 | scoring a well-formed room keeps the total of points |
| `RoomProps.FinishPaysLosses` | room.js:420-446 | without a Báo-1 override or a Sâm win, scoring charges each seated loser the loss of their remaining hand and pays the winner the pot |
| `RoomProps.PlayRefusals` | room.js:289-303 | each refusal of a play happens exactly in its own case, in room.js's order of checks |
| `RoomProps.PlayCardNotInHand` | room.js:293-297 | CARD_NOT_IN_HAND iff the ids repeat a card or name one not held |
| `RoomProps.PlayTable` | room.js:388-391 | an accepted play puts exactly the named cards on the table in the player's name, as a combination that beats the old one |
| `RoomProps.PlayCatchesSam` | room.js:341-365 | beating the declarer's cards ends the round with every hand untouched and the penalty applied |
| `RoomProps.PlayMovesCards` | room.js:369-371 | otherwise exactly the chosen cards leave the player's hand, other hands are unchanged, the player is marked as having played, and no card is lost |
| `RoomProps.PlayWins` | room.js:393-410 | the player wins iff the play uses up their hand |
| `RoomProps.PlayOpensBao1` | room.js:374-386 | leaving one card opens a fresh Báo-1 watch naming whoever played last before them |
| `RoomProps.PlayRecordsOffender` | room.js:305-321 | a watched player who leads a single other than their highest card is recorded as the offender |
| `RoomProps.PlayTriggersBao1` | room.js:399-402 | a Báo-1 player who wins after an offence triggers the override |
| `RoomProps.DealtHandsOk` | room.js:153-165 | from a shuffled deck every seated player gets ten cards of the deck and no card goes to two players |
| `RoomProps.StartGameDeals` | room.js:159-174 | with no white win every seat holds its dealt column and the declaration window opens |
| `RoomProps.StartGameWhiteWin` | room.js:188-198 | the first seat dealt a white win wins at once: hand emptied, round over, recorded as last winner |
| `RoomProps.NewRoomValid` | room.js:53-96 | a new room of at most five seats is well formed with total 0 |
| `RoomProps.AddPlayerValid` | room.js:102-111 | joining keeps the room well formed and the total |
| `RoomProps.RemovePlayerValid` | room.js:113-124 | leaving keeps the room well formed and the total |
| `RoomProps.StartGameValid` | room.js:146-201 | dealing from a shuffled deck keeps the room well formed and the points |
| `RoomProps.DeclareSamValid` | room.js:203-208 | declaring keeps the room well formed and leaves the points unchanged |
| `RoomProps.TickValid` | room.js:210-228 | closing the window keeps the room well formed and leaves the points unchanged |
| `RoomProps.PassValid` | room.js:230-248 | passing keeps the room well formed and leaves the points unchanged |
| `RoomProps.PlayValid` | room.js:286-418 | playing keeps the room well formed and, with the corrected Sâm penalty, the total |
| `RoomProps.FinishValid` | room.js:420-446 | scoring keeps the room well formed and the total |
| `RoomProps.RunConserves` | room.js:102-446 | with the corrected Sâm penalty, any sequence of commands keeps the total of points |
| `RoomProps.ZeroSumGame` | room.js:102-446 | with the corrected Sâm penalty, the points of everybody sum to zero after any sequence of commands from a new room |

## Left out

- index.js (transport, broadcasting, room codes, timers) is not part of this model. Only its order of calls is reflected: rounds are scored after a win, not after a caught Sâm.
- The shuffle is not modelled: the deck is a parameter, required where needed to be a permutation of the fresh deck.
- The clock is a parameter: `Date.now()` becomes `now`.
- `snapshot`, `getName`, player names and message texts are display strings. Events are abstract values.
- Room.StartGame requires at least ten cards per seated player. With more than five seats room.js would pop undefined cards. `Valid` therefore bounds a room to five seats.
- Rules.Classify leaves out the third straight test. `Rules.StepsByOneIsEvery` proves it is the first test again, so it cannot change the result.
- Scoring.Bao1Override also requires a winner. With an empty roster and no Báo-1 player scoring.js would compare null with null.
- Ledger.Get reads a missing balance as 0 where room.js would compute with `undefined`. Every seated player has a balance in a well-formed room, and balances are never deleted.
- Room.WatchBao1 follows the code, not its comment. The watched player is whoever played last before the Báo-1 player, not the player seated before them.
- Room.AddPlayer replies `AlreadySeated` where room.js returns nothing for a seated player. The room is unchanged in both.
- RoomProps.RunConserves requires every deck it deals from to be a shuffled deck. Its commands leave out the host check that index.js makes before a new round.
- Room.CatchSam applies the corrected Sâm penalty (`Room.ApplySamPenalty`), not room.js's as written. Once the declarer has left the room, room.js's penalty raises the total by 20 (see "## Findings"). The as-written penalty is `Room.ApplySamPenaltyAsWritten`.
- Room.Play reaches the catch through `Room.CatchSam`, so it too uses the corrected Sâm penalty. Its conservation of the total, and that of `RoomProps.PlayValid`, `RoomProps.RunConserves` and `RoomProps.ZeroSumGame`, holds for the corrected engine. It does not hold for room.js as written.
- RoomProps.PlayRecordsOffender excludes a two-card hand. That play leaves one card and opens a fresh watch, which clears the offence.

## Findings

| source | as written | input that shows it | evidently intended | confidence | as-written member | corrected member |
|---|---|---|---|---|---|---|
| room.js:260-275 | the caught declarer pays 20 × (players − 1), but every seated player other than the declarer gains 20 | declarer A holds the table and leaves a room of three (the Sâm record and table survive `removePlayer`); B beats the table; A pays 20 while B and C gain 20 each, so the total grows by 20 | the declarer pays exactly what the others gain, so points stay zero-sum | not executed | `Room.ApplySamPenaltyAsWritten` (`RoomProps.SamPenaltyAsWrittenInflates`, `RoomProps.DeclarerLeavesAndIsCaught`) | `Room.ApplySamPenalty` (`RoomProps.ZeroSumGame`) |

=== FILE: base.dfy ===
/** Shared vocabulary of the game engine: optional values, the structured
    `{ ok, reason }` result every command returns, player identities, and a few
    generic sequence facts used by every other module. */
module Base {

  /** A value that may be absent; stands for the JavaScript `null`. */
  datatype Option<+T> = None | Some(value: T)

  /** Every rejection reason the engine reports, by the name it uses. */
  datatype Reason =
    | Empty            // EMPTY
    | InvalidSet       // INVALID_SET
    | Ka2NotAllowed    // KA2_NOT_ALLOWED
    | InvalidStraight  // INVALID_STRAIGHT
    | InvalidCombo     // INVALID_COMBO
    | RoomFull         // ROOM_FULL
    | AlreadyStarted   // ALREADY_STARTED
    | Need2Players     // NEED_2_PLAYERS
    | NotDeclarePhase  // NOT_DECLARE_PHASE
    | NotInRoom        // NOT_IN_ROOM
    | NotPlaying       // NOT_PLAYING
    | NotYourTurn      // NOT_YOUR_TURN
    | CannotPassOnEmpty   // CANNOT_PASS_ON_EMPTY
    | YouPassedThisTrick  // YOU_PASSED_THIS_TRICK
    | CardNotInHand       // CARD_NOT_IN_HAND
    | CannotBeatTable     // CANNOT_BEAT_TABLE

  /** `{ ok: true, ... }` carries a payload, `{ ok: false, reason }` a reason. */
  datatype Result<+T> = Ok(value: T) | Err(reason: Reason)

  /** Transport-assigned player identities are never empty, so the engine's
      truthiness tests on an id coincide with "is not null". */
  type PlayerId = s: string | s != [] witness "p"

  ghost predicate Distinct<T>(s: seq<T>) {
    forall i, j :: 0 <= i < j < |s| ==> s[i] != s[j]
  }

  /** Index of the first element satisfying `p`, or `|s|` when there is none
      (JavaScript's `findIndex`, with `|s|` in place of -1). */
  function FindFirst<T>(s: seq<T>, p: T -> bool): (i: nat)
    ensures i <= |s|
    ensures i < |s| ==> p(s[i])
    ensures forall j :: 0 <= j < i ==> !p(s[j])
    ensures i == |s| <==> (forall x :: x in s ==> !p(x))
  {
    if |s| == 0 then 0
    else if p(s[0]) then 0
    else 1 + FindFirst(s[1..], p)
  }

  /** Position of `x` in `s`, or `|s|` when absent. */
  function IndexOf<T(==)>(s: seq<T>, x: T): (i: nat)
    ensures i <= |s|
    ensures i < |s| <==> x in s
    ensures i < |s| ==> s[i] == x
    ensures forall j :: 0 <= j < i ==> s[j] != x
  {
    FindFirst(s, y => y == x)
  }

  /** The elements of `s` other than `x`, in order. */
  function Without<T(==,!new)>(s: seq<T>, x: T): (r: seq<T>)
    ensures forall y :: y in r <==> y in s && y != x
    ensures |r| <= |s|
    ensures x in s ==> |r| < |s|
  {
    if |s| == 0 then []
    else if s[0] == x then Without(s[1..], x)
    else [s[0]] + Without(s[1..], x)
  }

  lemma {:induction false} WithoutDistinct<T(!new)>(s: seq<T>, x: T)
    requires Distinct(s)
    ensures Distinct(Without(s, x))
    ensures x in s ==> |Without(s, x)| == |s| - 1
    ensures x !in s ==> Without(s, x) == s
  {
    if |s| > 0 {
      WithoutDistinct(s[1..], x);
      if s[0] != x {
        var t := Without(s[1..], x);
        assert s[0] !in t;
        assert Distinct([s[0]] + t) by {
          forall i, j | 0 <= i < j < |[s[0]] + t|
            ensures ([s[0]] + t)[i] != ([s[0]] + t)[j]
          {
            if i > 0 {
              assert ([s[0]] + t)[i] == t[i - 1];
            }
            assert ([s[0]] + t)[j] == t[j - 1];
          }
        }
        if x !in s {
          assert s == [s[0]] + s[1..];
        }
      } else {
        assert x !in s[1..];
      }
    }
  }

  /** A sequence is duplicate-free exactly when no element occurs twice in its
      multiset; this makes duplicate-freedom a property of the multiset. */
  lemma {:induction false} DistinctIffMultiset<T>(s: seq<T>)
    ensures Distinct(s) <==> forall x :: multiset(s)[x] <= 1
  {
    if |s| == 0 {
    } else {
      DistinctIffMultiset(s[1..]);
      assert s == [s[0]] + s[1..];
      assert multiset(s) == multiset{s[0]} + multiset(s[1..]);
      if Distinct(s) {
        assert Distinct(s[1..]) by {
          forall i, j | 0 <= i < j < |s[1..]| ensures s[1..][i] != s[1..][j] {
            assert s[1..][i] == s[i + 1] && s[1..][j] == s[j + 1];
          }
        }
        assert s[0] !in s[1..] by {
          forall k | 0 <= k < |s[1..]| ensures s[1..][k] != s[0] {
            assert s[1..][k] == s[k + 1];
          }
        }
      } else {
        var i, j :| 0 <= i < j < |s| && s[i] == s[j];
        if i == 0 {
          assert s[j] in s[1..] by { assert s[1..][j - 1] == s[j]; }
          assert multiset(s)[s[0]] >= 2;
        } else {
          assert s[1..][i - 1] == s[i] && s[1..][j - 1] == s[j];
          assert !Distinct(s[1..]);
          var y :| multiset(s[1..])[y] > 1;
          assert multiset(s)[y] > 1;
        }
      }
    }
  }

  lemma DistinctPermutation<T>(a: seq<T>, b: seq<T>)
    requires multiset(a) == multiset(b)
    requires Distinct(a)
    ensures Distinct(b)
  {
    DistinctIffMultiset(a);
    DistinctIffMultiset(b);
  }

  /** The number of different elements of `s` is its length exactly when it is
      duplicate-free, and smaller otherwise. */
  lemma {:induction false} DistinctCardinality<T>(s: seq<T>)
    ensures |set x | x in s| <= |s|
    ensures |set x | x in s| == |s| <==> Distinct(s)
  {
    if |s| == 0 {
      assert (set x | x in s) == {};
    } else {
      var t := s[1..];
      DistinctCardinality(t);
      var st := set x | x in t;
      assert (set x | x in s) == st + {s[0]} by {
        assert s == [s[0]] + t;
      }
      if s[0] in t {
        assert (set x | x in s) == st;
        var k :| 0 <= k < |t| && t[k] == s[0];
        assert s[k + 1] == s[0];
        assert !Distinct(s);
      } else {
        assert |set x | x in s| == |st| + 1;
        if Distinct(s) {
          assert Distinct(t) by {
            forall i, j | 0 <= i < j < |t| ensures t[i] != t[j] {
              assert t[i] == s[i + 1] && t[j] == s[j + 1];
            }
          }
        } else {
          var i, j :| 0 <= i < j < |s| && s[i] == s[j];
          assert i > 0;
          assert t[i - 1] == s[i] && t[j - 1] == s[j];
          assert !Distinct(t);
        }
      }
    }
  }
}

=== FILE: cards.dfy ===
/** Cards, the two rank orders of Sâm Lốc, rank sorting and the 52-card deck. */
module Cards {
  import opened Base

  /** A rank is its position in the game's primary order `ORDER`
      (3 < 4 < ... < K < A < 2), which is also its `RANK_VALUE`. */
  newtype Rank = v: int | 0 <= v < 13

  const Three: Rank := 0
  const Four: Rank := 1
  const Five: Rank := 2
  const Six: Rank := 3
  const Seven: Rank := 4
  const Eight: Rank := 5
  const Nine: Rank := 6
  const Ten: Rank := 7
  const Jack: Rank := 8
  const Queen: Rank := 9
  const King: Rank := 10
  const Ace: Rank := 11
  const Two: Rank := 12

  datatype Suit = Spades | Hearts | Diamonds | Clubs

  /** A card; its identifier in the game is rank followed by suit, which
      determines the card, so the card value itself serves as its identifier. */
  datatype Card = Card(rank: Rank, suit: Suit)

  /** `ORDER`: the primary rank order, lowest first. */
  const PrimaryOrder: seq<Rank> :=
    [Three, Four, Five, Six, Seven, Eight, Nine, Ten, Jack, Queen, King, Ace, Two]

  /** `STRAIGHT_ORDER`: the alternate order used for straights starting at A or 2. */
  const AlternateOrder: seq<Rank> :=
    [Ace, Two, Three, Four, Five, Six, Seven, Eight, Nine, Ten, Jack, Queen, King]

  const Suits: seq<Suit> := [Spades, Hearts, Diamonds, Clubs]

  /** `RANK_VALUE[r]` (and `rankValue(r)` of the room): position of `r` in the primary order. */
  function RankValue(r: Rank): (v: nat)
    ensures v < |PrimaryOrder| && PrimaryOrder[v] == r
  {
    r as nat
  }

  /** `S_VAL[r]`: position of `r` in the alternate order. */
  function StraightValue(r: Rank): (v: nat)
    ensures v < |AlternateOrder| && AlternateOrder[v] == r
  {
    if r == Ace || r == Two then (r - Ace) as nat else (r + 2) as nat
  }

  /** The two total orders a straight is checked under. */
  datatype Order = Primary | Alternate

  function Key(ord: Order, r: Rank): nat {
    match ord
    case Primary => RankValue(r)
    case Alternate => StraightValue(r)
  }

  /** Each order ranks the thirteen ranks without ties. */
  lemma KeyInjective(ord: Order, a: Rank, b: Rank)
    requires Key(ord, a) == Key(ord, b)
    ensures a == b
  {
  }

  function RanksOf(cards: seq<Card>): (rs: seq<Rank>)
    ensures |rs| == |cards|
    ensures forall i :: 0 <= i < |cards| ==> rs[i] == cards[i].rank
  {
    if |cards| == 0 then [] else [cards[0].rank] + RanksOf(cards[1..])
  }

  /** How many cards of rank `r` a hand holds (`hand.filter(c => c.r === r).length`). */
  function CountRank(hand: seq<Card>, r: Rank): (n: nat)
    ensures n <= |hand|
    ensures n == 0 <==> forall i :: 0 <= i < |hand| ==> hand[i].rank != r
  {
    if |hand| == 0 then 0
    else (if hand[0].rank == r then 1 else 0) + CountRank(hand[1..], r)
  }

  /** A player's hand in a table of hands (`hands[pid] || []`). */
  function HandOf(hands: map<PlayerId, seq<Card>>, p: PlayerId): seq<Card> {
    if p in hands then hands[p] else []
  }

  ghost predicate SortedBy(ord: Order, s: seq<Rank>) {
    forall i, j :: 0 <= i < j < |s| ==> Key(ord, s[i]) <= Key(ord, s[j])
  }

  /** Inserts `x` into a sorted sequence, keeping it sorted. */
  function Insert(ord: Order, x: Rank, s: seq<Rank>): (r: seq<Rank>)
    requires SortedBy(ord, s)
    ensures multiset(r) == multiset(s) + multiset{x}
    ensures SortedBy(ord, r)
    decreases |s|, 1
  {
    if |s| == 0 then [x]
    else if Key(ord, x) <= Key(ord, s[0]) then [x] + s
    else
      assert s == [s[0]] + s[1..];
      InsertBehindHead(ord, x, s);
      [s[0]] + Insert(ord, x, s[1..])
  }

  /** When `x` goes behind the head, the head stays least. */
  lemma InsertBehindHead(ord: Order, x: Rank, s: seq<Rank>)
    requires SortedBy(ord, s) && |s| > 0 && Key(ord, s[0]) < Key(ord, x)
    ensures SortedBy(ord, [s[0]] + Insert(ord, x, s[1..]))
    decreases |s|, 0
  {
    var t := Insert(ord, x, s[1..]);
    forall k | 0 <= k < |t| ensures Key(ord, s[0]) <= Key(ord, t[k]) {
      assert t[k] in multiset(t);
      if t[k] != x {
        assert t[k] in multiset(s[1..]);
        var i :| 0 <= i < |s[1..]| && s[1..][i] == t[k];
        assert s[i + 1] == t[k];
      }
    }
    PrependLeast(ord, s[0], t);
  }

  /** Prepending an element no larger than any other keeps a sequence sorted. */
  lemma PrependLeast(ord: Order, y: Rank, t: seq<Rank>)
    requires SortedBy(ord, t)
    requires forall k :: 0 <= k < |t| ==> Key(ord, y) <= Key(ord, t[k])
    ensures SortedBy(ord, [y] + t)
  {
    var u := [y] + t;
    forall i, j | 0 <= i < j < |u| ensures Key(ord, u[i]) <= Key(ord, u[j]) {
      assert u[j] == t[j - 1];
      if i > 0 {
        assert u[i] == t[i - 1];
      }
    }
  }

  /** rules.js's `sortByRank` (and the re-sort by `S_VAL`) applied to ranks:
      the result is the sorted permutation of the input. */
  function SortBy(ord: Order, s: seq<Rank>): (r: seq<Rank>)
    ensures multiset(r) == multiset(s)
    ensures |r| == |s|
    ensures SortedBy(ord, r)
  {
    if |s| == 0 then []
    else
      assert s == [s[0]] + s[1..];
      Insert(ord, s[0], SortBy(ord, s[1..]))
  }

  lemma SortedTail(ord: Order, a: seq<Rank>)
    requires SortedBy(ord, a) && |a| > 0
    ensures SortedBy(ord, a[1..])
  {
    forall i, j | 0 <= i < j < |a[1..]| ensures Key(ord, a[1..][i]) <= Key(ord, a[1..][j]) {
      assert a[1..][i] == a[i + 1] && a[1..][j] == a[j + 1];
    }
  }

  /** The head of a sorted sequence is its least element, hence determined by
      the multiset. */
  lemma SortedHeadsAgree(ord: Order, a: seq<Rank>, b: seq<Rank>)
    requires SortedBy(ord, a) && SortedBy(ord, b)
    requires multiset(a) == multiset(b) && |a| > 0
    ensures |b| > 0 && a[0] == b[0]
  {
    assert a[0] in multiset(b);
    assert |b| > 0;
    assert b[0] in multiset(a);
    var i :| 0 <= i < |b| && b[i] == a[0];
    var j :| 0 <= j < |a| && a[j] == b[0];
    assert Key(ord, a[0]) <= Key(ord, a[j]);
    assert Key(ord, b[0]) <= Key(ord, b[i]);
    KeyInjective(ord, a[0], b[0]);
  }

  /** There is only one sorted arrangement of a multiset of ranks: sorting
      forgets the input order completely. */
  lemma {:induction false} SortedUnique(ord: Order, a: seq<Rank>, b: seq<Rank>)
    requires SortedBy(ord, a) && SortedBy(ord, b)
    requires multiset(a) == multiset(b)
    ensures a == b
    decreases |a|
  {
    if |a| == 0 {
      assert |b| == |multiset(b)| == 0;
    } else {
      SortedHeadsAgree(ord, a, b);
      assert a == [a[0]] + a[1..];
      assert b == [b[0]] + b[1..];
      assert multiset(a) == multiset{a[0]} + multiset(a[1..]);
      assert multiset(b) == multiset{b[0]} + multiset(b[1..]);
      assert multiset(a[1..]) == multiset(a) - multiset{a[0]};
      assert multiset(b[1..]) == multiset(b) - multiset{b[0]};
      SortedTail(ord, a);
      SortedTail(ord, b);
      SortedUnique(ord, a[1..], b[1..]);
    }
  }

  /** Sorting two permutations of each other gives the same sequence. */
  lemma SortByPermutation(ord: Order, a: seq<Rank>, b: seq<Rank>)
    requires multiset(a) == multiset(b)
    ensures SortBy(ord, a) == SortBy(ord, b)
  {
    SortedUnique(ord, SortBy(ord, a), SortBy(ord, b));
  }

  /** `makeDeck`: rank by rank in primary order, four suits each. */
  function MakeDeck(): (deck: seq<Card>)
    ensures |deck| == 52
    ensures forall i :: 0 <= i < 52 ==> deck[i] == Card((i / 4) as Rank, Suits[i % 4])
  {
    seq(52, i requires 0 <= i < 52 => Card((i / 4) as Rank, Suits[i % 4]))
  }

  /** The fresh deck holds every card exactly once. */
  lemma MakeDeckComplete(c: Card)
    ensures c in MakeDeck()
  {
    var suit := match c.suit case Spades => 0 case Hearts => 1 case Diamonds => 2 case Clubs => 3;
    var k := 4 * (c.rank as int) + suit;
    assert MakeDeck()[k] == c;
  }

  lemma MakeDeckDistinct()
    ensures Distinct(MakeDeck())
  {
    var d := MakeDeck();
    forall i, j | 0 <= i < j < 52 ensures d[i] != d[j] {
      if i / 4 == j / 4 {
        assert i % 4 != j % 4;
        assert Suits[i % 4] != Suits[j % 4];
      }
    }
  }

  /** A deck the shuffle could have produced: a permutation of the fresh deck. */
  ghost predicate IsShuffled(deck: seq<Card>) {
    multiset(deck) == multiset(MakeDeck())
  }

  lemma ShuffledDeck(deck: seq<Card>)
    requires IsShuffled(deck)
    ensures |deck| == 52
    ensures Distinct(deck)
  {
    assert |deck| == |multiset(deck)| == |multiset(MakeDeck())| == 52;
    MakeDeckDistinct();
    DistinctPermutation(MakeDeck(), deck);
  }
}

=== FILE: dealing.dfy ===
/** Dealing at the start of a round: ten passes round the table, each player
    in seat order taking the card popped off the end of the shuffled deck. */
module Dealing {
  import opened Base
  import opened Cards

  /** Cards dealt to each player. */
  const HandSize: nat := 10

  /** Repeated `deck.pop()`: the j-th card popped is the j-th from the end. */
  function Popped(deck: seq<Card>, m: nat): (cs: seq<Card>)
    requires m <= |deck|
    ensures |cs| == m
    ensures forall j :: 0 <= j < m ==> cs[j] == deck[|deck| - 1 - j]
  {
    seq(m, j requires 0 <= j < m => deck[|deck| - 1 - j])
  }

  lemma PoppedDistinct(deck: seq<Card>, m: nat)
    requires m <= |deck| && Distinct(deck)
    ensures Distinct(Popped(deck, m))
    ensures forall c :: c in Popped(deck, m) ==> c in deck
  {
    var cs := Popped(deck, m);
    forall c | c in cs ensures c in deck {
      var j :| 0 <= j < m && cs[j] == c;
      assert deck[|deck| - 1 - j] == c;
    }
  }

  lemma RoundsSplit(r: nat, n: nat)
    requires r > 0
    ensures r * n == (r - 1) * n + n
  {
  }

  /** One pass of the inner loop: `players[0..k)` each receive the next card
      of `cards`, in seat order. */
  function DealPass(hands: map<PlayerId, seq<Card>>, players: seq<PlayerId>, cards: seq<Card>, k: nat): map<PlayerId, seq<Card>>
    requires k <= |players| && k <= |cards|
  {
    if k == 0 then hands
    else
      var h := DealPass(hands, players, cards, k - 1);
      h[players[k - 1] := HandOf(h, players[k - 1]) + [cards[k - 1]]]
  }

  /** The dealing loops: `rounds` passes, each using the next `n` cards of
      the popped sequence. */
  function Deal(hands: map<PlayerId, seq<Card>>, players: seq<PlayerId>, cards: seq<Card>, rounds: nat): map<PlayerId, seq<Card>>
    requires rounds * |players| <= |cards|
    decreases rounds
  {
    if rounds == 0 then hands
    else
      var n := |players|;
      RoundsSplit(rounds, n);
      Deal(DealPass(hands, players, cards, n), players, cards[n..], rounds - 1)
  }

  /** The cards seat `k` of `n` receives in `rounds` passes: every `n`-th card
      starting at position `k`. */
  function Column(cards: seq<Card>, n: nat, k: nat, rounds: nat): (col: seq<Card>)
    requires k < n && rounds * n <= |cards|
    ensures |col| == rounds
  {
    if rounds == 0 then []
    else
      RoundsSplit(rounds, n);
      [cards[k]] + Column(cards[n..], n, k, rounds - 1)
  }

  lemma {:induction false} ColumnAt(cards: seq<Card>, n: nat, k: nat, rounds: nat, t: nat)
    requires k < n && rounds * n <= |cards| && t < rounds
    ensures t * n + k < |cards|
    ensures Column(cards, n, k, rounds)[t] == cards[t * n + k]
  {
    RoundsSplit(rounds, n);
    RoundsSplit(t + 1, n);
    MulMono(t + 1, rounds, n);
    if t > 0 {
      var rest := cards[n..];
      ColumnAt(rest, n, k, rounds - 1, t - 1);
      RoundsSplit(t, n);
      var i := (t - 1) * n + k;
      assert rest[i] == cards[n + i];
    }
  }

  /** A column only holds cards of the sequence it is taken from. */
  lemma {:induction false} ColumnWithin(cards: seq<Card>, n: nat, k: nat, rounds: nat)
    requires k < n && rounds * n <= |cards|
    ensures forall c :: c in Column(cards, n, k, rounds) ==> c in cards
    decreases rounds
  {
    if rounds > 0 {
      RoundsSplit(rounds, n);
      ColumnWithin(cards[n..], n, k, rounds - 1);
      assert forall c :: c in cards[n..] ==> c in cards;
    }
  }

  /** Positions `t * n + k` with `k < n` name each (pass, seat) pair once. */
  lemma PositionInjective(n: nat, t1: nat, k1: nat, t2: nat, k2: nat)
    requires k1 < n && k2 < n && t1 * n + k1 == t2 * n + k2
    ensures t1 == t2 && k1 == k2
  {
    if t1 < t2 {
      assert (t1 + 1) * n == t1 * n + n;
      MulMono(t1 + 1, t2, n);
    } else if t2 < t1 {
      assert (t2 + 1) * n == t2 * n + n;
      MulMono(t2 + 1, t1, n);
    }
  }

  lemma MulMono(a: nat, b: nat, n: nat)
    requires a <= b
    ensures a * n <= b * n
  {
  }

  /** One pass adds the next card to each of the first `k` seats. */
  lemma {:induction false} DealPassAt(hands: map<PlayerId, seq<Card>>, players: seq<PlayerId>, cards: seq<Card>, k: nat, j: nat)
    requires Distinct(players) && k <= |players| && k <= |cards| && j < |players|
    ensures HandOf(DealPass(hands, players, cards, k), players[j]) ==
            HandOf(hands, players[j]) + (if j < k then [cards[j]] else [])
  {
    if k > 0 {
      DealPassAt(hands, players, cards, k - 1, j);
      if j != k - 1 {
        assert players[j] != players[k - 1];
      }
    }
  }

  /** A pass leaves players who are not seated alone. */
  lemma {:induction false} DealPassOther(hands: map<PlayerId, seq<Card>>, players: seq<PlayerId>, cards: seq<Card>, k: nat, p: PlayerId)
    requires k <= |players| && k <= |cards| && p !in players
    ensures HandOf(DealPass(hands, players, cards, k), p) == HandOf(hands, p)
  {
    if k > 0 {
      DealPassOther(hands, players, cards, k - 1, p);
      assert players[k - 1] in players;
    }
  }

  lemma {:induction false} DealPassKeys(hands: map<PlayerId, seq<Card>>, players: seq<PlayerId>, cards: seq<Card>, k: nat)
    requires k <= |players| && k <= |cards|
    ensures DealPass(hands, players, cards, k).Keys == hands.Keys + set i | 0 <= i < k :: players[i]
  {
    if k > 0 {
      DealPassKeys(hands, players, cards, k - 1);
      assert (set i | 0 <= i < k :: players[i]) == (set i | 0 <= i < k - 1 :: players[i]) + {players[k - 1]};
    }
  }

  /** After `rounds` passes, seat `k` holds its earlier cards followed by its
      column of the popped cards. */
  lemma {:induction false} DealAt(hands: map<PlayerId, seq<Card>>, players: seq<PlayerId>, cards: seq<Card>, rounds: nat, k: nat)
    requires Distinct(players) && rounds * |players| <= |cards| && k < |players|
    ensures HandOf(Deal(hands, players, cards, rounds), players[k]) ==
            HandOf(hands, players[k]) + Column(cards, |players|, k, rounds)
    decreases rounds
  {
    if rounds > 0 {
      var n := |players|;
      RoundsSplit(rounds, n);
      var h1 := DealPass(hands, players, cards, n);
      DealPassAt(hands, players, cards, n, k);
      DealAt(h1, players, cards[n..], rounds - 1, k);
    }
  }

  /** Dealing leaves players who are not seated alone. */
  lemma {:induction false} DealOther(hands: map<PlayerId, seq<Card>>, players: seq<PlayerId>, cards: seq<Card>, rounds: nat, p: PlayerId)
    requires rounds * |players| <= |cards| && p !in players
    ensures HandOf(Deal(hands, players, cards, rounds), p) == HandOf(hands, p)
    decreases rounds
  {
    if rounds > 0 {
      var n := |players|;
      RoundsSplit(rounds, n);
      DealPassOther(hands, players, cards, n, p);
      DealOther(DealPass(hands, players, cards, n), players, cards[n..], rounds - 1, p);
    }
  }

  /** Once at least one pass is made every seated player has a hand entry. */
  lemma {:induction false} DealKeys(hands: map<PlayerId, seq<Card>>, players: seq<PlayerId>, cards: seq<Card>, rounds: nat)
    requires rounds * |players| <= |cards|
    ensures Deal(hands, players, cards, rounds).Keys == hands.Keys + (if rounds > 0 then set p | p in players else {})
    decreases rounds
  {
    if rounds > 0 {
      var n := |players|;
      RoundsSplit(rounds, n);
      DealPassKeys(hands, players, cards, n);
      DealKeys(DealPass(hands, players, cards, n), players, cards[n..], rounds - 1);
      assert (set i | 0 <= i < n :: players[i]) == set p | p in players by {
        forall p | p in players ensures p in set i | 0 <= i < n :: players[i] {
          var i :| 0 <= i < n && players[i] == p;
        }
      }
    }
  }

  lemma DistinctAt<T>(s: seq<T>, i: nat, j: nat)
    requires Distinct(s) && i < |s| && j < |s| && s[i] == s[j]
    ensures i == j
  {
  }

  /** Two cards of seat columns coincide only at the same pass and seat. */
  lemma ColumnsMeet(cards: seq<Card>, n: nat, k1: nat, k2: nat, rounds: nat, a: nat, b: nat)
    requires Distinct(cards) && k1 < n && k2 < n && rounds * n <= |cards| && a < rounds && b < rounds
    requires Column(cards, n, k1, rounds)[a] == Column(cards, n, k2, rounds)[b]
    ensures a == b && k1 == k2
  {
    ColumnAt(cards, n, k1, rounds, a);
    ColumnAt(cards, n, k2, rounds, b);
    var i := a * n + k1;
    var j := b * n + k2;
    DistinctAt(cards, i, j);
    PositionInjective(n, a, k1, b, k2);
  }

  /** Distinct cards make the columns duplicate-free and pairwise disjoint. */
  lemma ColumnsDisjoint(cards: seq<Card>, n: nat, k1: nat, k2: nat, rounds: nat)
    requires Distinct(cards) && k1 < n && k2 < n && rounds * n <= |cards|
    ensures Distinct(Column(cards, n, k1, rounds))
    ensures k1 != k2 ==> forall c :: c in Column(cards, n, k1, rounds) ==> c !in Column(cards, n, k2, rounds)
  {
    var c1 := Column(cards, n, k1, rounds);
    var c2 := Column(cards, n, k2, rounds);
    forall a, b | 0 <= a < b < rounds ensures c1[a] != c1[b] {
      if c1[a] == c1[b] {
        ColumnsMeet(cards, n, k1, k1, rounds, a, b);
      }
    }
    if k1 != k2 {
      forall c | c in c1 ensures c !in c2 {
        var a :| 0 <= a < rounds && c1[a] == c;
        if c in c2 {
          var b :| 0 <= b < rounds && c2[b] == c;
          ColumnsMeet(cards, n, k1, k2, rounds, a, b);
        }
      }
    }
  }
}

=== FILE: hands.dfy ===
/** Operations on a player's hand used by the room: picking the named cards,
    the highest single card, and the "white win" hands that end a round at
    the deal. */
module Hands {
  import opened Base
  import opened Cards
  import opened Rules

  /** `hand.filter(c => set.has(c.id))`: the named cards, in hand order. */
  function Select(hand: seq<Card>, ids: seq<Card>): (r: seq<Card>)
    ensures forall c :: c in r <==> c in hand && c in ids
  {
    if |hand| == 0 then []
    else (if hand[0] in ids then [hand[0]] else []) + Select(hand[1..], ids)
  }

  /** `hand.filter(c => !set.has(c.id))`: the cards left after playing `ids`. */
  function Drop(hand: seq<Card>, ids: seq<Card>): (r: seq<Card>)
    ensures forall c :: c in r <==> c in hand && c !in ids
  {
    if |hand| == 0 then []
    else (if hand[0] in ids then [] else [hand[0]]) + Drop(hand[1..], ids)
  }

  /** Selecting and dropping the same ids splits the hand in two. */
  lemma {:induction false} SelectDropSplit(hand: seq<Card>, ids: seq<Card>)
    ensures multiset(Select(hand, ids)) + multiset(Drop(hand, ids)) == multiset(hand)
    ensures |Select(hand, ids)| + |Drop(hand, ids)| == |hand|
  {
    if |hand| > 0 {
      SelectDropSplit(hand[1..], ids);
      assert hand == [hand[0]] + hand[1..];
    }
  }

  /** Both parts of a duplicate-free hand are duplicate-free. */
  lemma SelectDropDistinct(hand: seq<Card>, ids: seq<Card>)
    requires Distinct(hand)
    ensures Distinct(Select(hand, ids)) && Distinct(Drop(hand, ids))
  {
    SelectDropSplit(hand, ids);
    DistinctIffMultiset(hand);
    DistinctIffMultiset(Select(hand, ids));
    DistinctIffMultiset(Drop(hand, ids));
    forall x ensures multiset(Select(hand, ids))[x] <= 1 && multiset(Drop(hand, ids))[x] <= 1 {
      assert multiset(hand)[x] <= 1;
    }
  }

  lemma SubsetCard<T>(a: set<T>, b: set<T>)
    requires a <= b
    ensures |a| <= |b|
    ensures |a| == |b| ==> a == b
  {
    if a != b {
      var x :| x in b && x !in a;
      assert a <= b - {x};
      SubsetSmaller(a, b - {x});
    }
  }

  lemma {:induction false} SubsetSmaller<T>(a: set<T>, b: set<T>)
    requires a <= b
    ensures |a| <= |b|
    decreases b
  {
    if a != {} {
      var x :| x in a;
      SubsetSmaller(a - {x}, b - {x});
    }
  }

  /** The length test of `play`: for a duplicate-free hand, as many cards are
      selected as ids were named exactly when the ids are duplicate-free and
      all in the hand. So a repeated id is refused as a card not in hand. */
  lemma SelectAccepted(hand: seq<Card>, ids: seq<Card>)
    requires Distinct(hand)
    ensures |Select(hand, ids)| == |ids| <==> Distinct(ids) && forall c :: c in ids ==> c in hand
    ensures |Select(hand, ids)| == |ids| ==> (set c | c in Select(hand, ids)) == set c | c in ids
  {
    var s := Select(hand, ids);
    SelectDropDistinct(hand, ids);
    DistinctCardinality(s);
    DistinctCardinality(ids);
    var ss := set c | c in s;
    var si := set c | c in ids;
    assert ss <= si;
    SubsetCard(ss, si);
    if Distinct(ids) && forall c :: c in ids ==> c in hand {
      assert ss == si;
    }
    if |s| == |ids| {
      assert |ss| == |si| == |ids|;
      assert ss == si;
      forall c | c in ids ensures c in hand {
        assert c in si;
      }
    }
  }

  // ---------------------------------------------------------------------
  // Highest single card.

  /** Position of `highestSingleCardId(hand)`: scanning in order, a card
      replaces the best so far only when its rank value is strictly higher. */
  function HighestIndex(hand: seq<Card>): (k: nat)
    requires |hand| > 0
    ensures k < |hand|
    ensures forall i :: 0 <= i < |hand| ==> RankValue(hand[i].rank) <= RankValue(hand[k].rank)
    ensures forall i :: 0 <= i < k ==> RankValue(hand[i].rank) < RankValue(hand[k].rank)
  {
    if |hand| == 1 then 0
    else
      var front := hand[..|hand| - 1];
      var k := HighestIndex(front);
      assert forall i :: 0 <= i < |front| ==> front[i] == hand[i];
      if RankValue(hand[|hand| - 1].rank) > RankValue(hand[k].rank) then |hand| - 1 else k
  }

  /** `highestSingleCardId`: `null` for an empty hand. */
  function HighestCard(hand: seq<Card>): (best: Option<Card>)
    ensures best.None? <==> |hand| == 0
    ensures best.Some? ==> best.value in hand
  {
    if |hand| == 0 then None else Some(hand[HighestIndex(hand)])
  }

  /** The highest card is the first card of maximal rank value, and no other
      position has that property. */
  lemma HighestIsFirstMaximal(hand: seq<Card>, k: nat)
    requires k < |hand|
    ensures k == HighestIndex(hand) <==>
      && (forall i :: 0 <= i < |hand| ==> RankValue(hand[i].rank) <= RankValue(hand[k].rank))
      && (forall i :: 0 <= i < k ==> RankValue(hand[i].rank) < RankValue(hand[k].rank))
  {
    var h := HighestIndex(hand);
    if k < h {
      assert RankValue(hand[k].rank) < RankValue(hand[h].rank);
    } else if h < k {
      assert RankValue(hand[k].rank) <= RankValue(hand[h].rank);
    }
  }

  // ---------------------------------------------------------------------
  // White wins.

  /** `isWhiteWin_TuQuy2`: all four 2s. */
  predicate FourTwos(hand: seq<Card>) {
    CountRank(hand, Two) == 4
  }

  /** `isWhiteWin_10Straight`: the whole hand is one ten-card straight. */
  predicate TenStraight(hand: seq<Card>) {
    var c := Classify(hand);
    c.Ok? && c.value.kind == Straight && c.value.len == 10
  }

  /** How many of the ranks `rs` occur exactly twice in the hand. */
  function PairRanks(hand: seq<Card>, rs: seq<Rank>): (n: nat)
    ensures n <= |rs|
  {
    if |rs| == 0 then 0
    else (if CountRank(hand, rs[0]) == 2 then 1 else 0) + PairRanks(hand, rs[1..])
  }

  /** `isWhiteWin_5Pairs`: exactly five ranks are held exactly twice. */
  predicate FivePairs(hand: seq<Card>) {
    PairRanks(hand, PrimaryOrder) == 5
  }

  predicate WhiteWin(hand: seq<Card>) {
    FourTwos(hand) || TenStraight(hand) || FivePairs(hand)
  }

  /** A rank's count is its multiplicity among the hand's ranks. */
  lemma {:induction false} CountRankMultiset(hand: seq<Card>, r: Rank)
    ensures CountRank(hand, r) == multiset(RanksOf(hand))[r]
  {
    if |hand| > 0 {
      CountRankMultiset(hand[1..], r);
      assert RanksOf(hand) == [hand[0].rank] + RanksOf(hand[1..]);
      assert multiset(RanksOf(hand)) == multiset{hand[0].rank} + multiset(RanksOf(hand[1..]));
    }
  }

  lemma {:induction false} PairRanksAgree(a: seq<Card>, b: seq<Card>, rs: seq<Rank>)
    requires forall r :: CountRank(a, r) == CountRank(b, r)
    ensures PairRanks(a, rs) == PairRanks(b, rs)
  {
    if |rs| > 0 {
      PairRanksAgree(a, b, rs[1..]);
    }
  }

  /** Whether a hand is a white win does not depend on the order of its cards. */
  lemma WhiteWinPermutation(a: seq<Card>, b: seq<Card>)
    requires multiset(a) == multiset(b)
    ensures WhiteWin(a) <==> WhiteWin(b)
    ensures FourTwos(a) == FourTwos(b) && TenStraight(a) == TenStraight(b) && FivePairs(a) == FivePairs(b)
  {
    RanksOfPermutation(a, b);
    forall r ensures CountRank(a, r) == CountRank(b, r) {
      CountRankMultiset(a, r);
      CountRankMultiset(b, r);
    }
    ClassifyPermutation(a, b);
    PairRanksAgree(a, b, PrimaryOrder);
  }
}

=== FILE: ledger.dfy ===
/** Point ledgers: the room's `points` and the score `delta`, both maps from
    player to an integer balance, and the facts about their totals that make
    every point movement of the game conserve the sum of all balances. */
module Ledger {
  import opened Base

  /** A balance; an absent entry reads as 0, as in `(points[pid] || 0)`. */
  function Get(m: map<PlayerId, int>, k: PlayerId): int {
    if k in m then m[k] else 0
  }

  /** The sum of all balances of a ledger. */
  ghost function Total(m: map<PlayerId, int>): int
    decreases m.Keys
  {
    if m.Keys == {} then 0
    else
      var k :| k in m;
      m[k] + Total(m - {k})
  }

  /** The total can be split at any entry, not only at the one `Total` picks. */
  lemma {:induction false} TotalRemove(m: map<PlayerId, int>, k: PlayerId)
    requires k in m
    ensures Total(m) == m[k] + Total(m - {k})
    decreases m.Keys
  {
    var j :| j in m && Total(m) == m[j] + Total(m - {j});
    if j != k {
      TotalRemove(m - {j}, k);
      TotalRemove(m - {k}, j);
      assert m - {j} - {k} == m - {k} - {j};
    }
  }

  /** `m[k] += v`, creating the entry at 0 when it is absent. */
  function Credit(m: map<PlayerId, int>, k: PlayerId, v: int): (r: map<PlayerId, int>)
    ensures r.Keys == m.Keys + {k}
    ensures Get(r, k) == Get(m, k) + v
    ensures forall j :: j != k ==> Get(r, j) == Get(m, j)
  {
    m[k := Get(m, k) + v]
  }

  /** Crediting one entry changes the total by exactly the amount credited. */
  lemma TotalCredit(m: map<PlayerId, int>, k: PlayerId, v: int)
    ensures Total(Credit(m, k, v)) == Total(m) + v
  {
    var r := Credit(m, k, v);
    TotalRemove(r, k);
    if k in m {
      TotalRemove(m, k);
      assert r - {k} == m - {k};
    } else {
      assert r - {k} == m;
    }
  }

  /** Moves `amount` from `from` to `to` (the "cut the two" transfers). */
  function Transfer(m: map<PlayerId, int>, from: PlayerId, to: PlayerId, amount: int): (r: map<PlayerId, int>)
    requires from != to
    ensures Get(r, from) == Get(m, from) - amount
    ensures Get(r, to) == Get(m, to) + amount
    ensures forall j :: j != from && j != to ==> Get(r, j) == Get(m, j)
    ensures r.Keys == m.Keys + {from, to}
    ensures Total(r) == Total(m)
  {
    var m1 := Credit(m, from, -amount);
    TotalCredit(m, from, -amount);
    TotalCredit(m1, to, amount);
    Credit(m1, to, amount)
  }

  /** Credits `v` once to each entry of `ks`, in order (with repetitions). */
  function CreditEach(m: map<PlayerId, int>, ks: seq<PlayerId>, v: int): (r: map<PlayerId, int>)
    ensures r.Keys == m.Keys + set k | k in ks
    decreases |ks|
  {
    if |ks| == 0 then m else CreditEach(Credit(m, ks[0], v), ks[1..], v)
  }

  /** Crediting a list of entries adds `v` for every entry of the list. */
  lemma {:induction false} TotalCreditEach(m: map<PlayerId, int>, ks: seq<PlayerId>, v: int)
    ensures Total(CreditEach(m, ks, v)) == Total(m) + v * |ks|
    decreases |ks|
  {
    if |ks| > 0 {
      var m1 := Credit(m, ks[0], v);
      var t := ks[1..];
      assert CreditEach(m, ks, v) == CreditEach(m1, t, v);
      TotalCredit(m, ks[0], v);
      TotalCreditEach(m1, t, v);
      assert Total(CreditEach(m1, t, v)) == Total(m1) + v * |t|;
      assert Total(m1) == Total(m) + v;
      MulSucc(v, |t|);
    }
  }

  lemma MulSucc(v: int, n: nat)
    ensures v * (n + 1) == v * n + v
  {
  }

  /** Each entry of a duplicate-free list gets `v`; every other entry is untouched. */
  lemma {:induction false} CreditEachGet(m: map<PlayerId, int>, ks: seq<PlayerId>, v: int, j: PlayerId)
    requires Distinct(ks)
    ensures Get(CreditEach(m, ks, v), j) == Get(m, j) + (if j in ks then v else 0)
    decreases |ks|
  {
    if |ks| > 0 {
      assert Distinct(ks[1..]) by {
        forall a, b | 0 <= a < b < |ks[1..]| ensures ks[1..][a] != ks[1..][b] {
          assert ks[1..][a] == ks[a + 1] && ks[1..][b] == ks[b + 1];
        }
      }
      CreditEachGet(Credit(m, ks[0], v), ks[1..], v, j);
      assert j in ks <==> j == ks[0] || j in ks[1..] by {
        assert ks == [ks[0]] + ks[1..];
      }
      if j == ks[0] {
        assert j !in ks[1..] by {
          forall a | 0 <= a < |ks[1..]| ensures ks[1..][a] != j {
            assert ks[1..][a] == ks[a + 1];
          }
        }
      }
    }
  }

  /** `for (pid of Object.keys(delta)) points[pid] = (points[pid] || 0) + delta[pid]`. */
  function ApplyDeltas(points: map<PlayerId, int>, delta: map<PlayerId, int>): (r: map<PlayerId, int>)
    ensures r.Keys == points.Keys + delta.Keys
    ensures forall k :: k in r ==> r[k] == Get(points, k) + Get(delta, k)
  {
    map k | k in points.Keys + delta.Keys :: Get(points, k) + Get(delta, k)
  }

  /** Applying a score sheet adds its total to the ledger's total. */
  lemma {:induction false} TotalApplyDeltas(points: map<PlayerId, int>, delta: map<PlayerId, int>)
    ensures Total(ApplyDeltas(points, delta)) == Total(points) + Total(delta)
    decreases delta.Keys
  {
    if delta.Keys == {} {
      assert ApplyDeltas(points, delta) == points;
    } else {
      var k :| k in delta;
      var rest := delta - {k};
      TotalApplyDeltas(points, rest);
      TotalRemove(delta, k);
      ApplyOneMore(points, delta, k);
      TotalCredit(ApplyDeltas(points, rest), k, delta[k]);
    }
  }

  /** Applying a sheet is applying it without one entry, then crediting that entry. */
  lemma ApplyOneMore(points: map<PlayerId, int>, delta: map<PlayerId, int>, k: PlayerId)
    requires k in delta
    ensures ApplyDeltas(points, delta) == Credit(ApplyDeltas(points, delta - {k}), k, delta[k])
  {
    var a := ApplyDeltas(points, delta);
    var b := Credit(ApplyDeltas(points, delta - {k}), k, delta[k]);
    assert a.Keys == b.Keys;
    forall j | j in a ensures a[j] == b[j] {
      assert Get(b, j) == b[j];
    }
  }

  /** The sum of the balances listed in `ks` (with repetitions). */
  function SumAt(m: map<PlayerId, int>, ks: seq<PlayerId>): int {
    if |ks| == 0 then 0 else Get(m, ks[0]) + SumAt(m, ks[1..])
  }

  lemma {:induction false} SumAtAgree(m: map<PlayerId, int>, m': map<PlayerId, int>, ks: seq<PlayerId>)
    requires forall k :: k in ks ==> Get(m, k) == Get(m', k)
    ensures SumAt(m, ks) == SumAt(m', ks)
  {
    if |ks| > 0 {
      assert ks[0] in ks;
      SumAtAgree(m, m', ks[1..]);
    }
  }

  /** A ledger whose keys are listed exactly once sums to the list's sum. */
  lemma {:induction false} TotalIsSumAt(m: map<PlayerId, int>, ks: seq<PlayerId>)
    requires Distinct(ks)
    requires m.Keys == set k | k in ks
    ensures Total(m) == SumAt(m, ks)
  {
    if |ks| == 0 {
    } else {
      var k := ks[0];
      var t := ks[1..];
      assert k in m;
      assert k !in t by {
        forall a | 0 <= a < |t| ensures t[a] != k {
          assert t[a] == ks[a + 1];
        }
      }
      assert Distinct(t) by {
        forall a, b | 0 <= a < b < |t| ensures t[a] != t[b] {
          assert t[a] == ks[a + 1] && t[b] == ks[b + 1];
        }
      }
      TotalRemove(m, k);
      var rest := m - {k};
      assert rest.Keys == set x | x in t by {
        forall x ensures x in rest.Keys <==> x in t {
          assert x in ks <==> x == k || x in t;
        }
      }
      TotalIsSumAt(rest, t);
      assert forall x :: x in t ==> Get(rest, x) == Get(m, x);
      SumAtAgree(rest, m, t);
    }
  }
}

=== FILE: room.dfy ===
/** The room: seats, the phase machine LOBBY → DECLARE_SAM → PLAYING →
    ROUND_END, the turn pointer, the trick on the table, the Sâm declaration
    and its resolution, the Báo-1 ("last card") watch, and the point ledger.
    Every command is a pure function from a room to a reply and a new room. */
module Room {
  import opened Base
  import opened Cards
  import opened Rules
  import opened Ledger
  import opened Scoring
  import opened Hands
  import opened Dealing

  /** The most seats a room can deal for: ten cards each from 52. */
  const MaxSeats: nat := 5
  /** `DECLARE_SECONDS * 1000`: the declaration window in milliseconds. */
  const DeclareMillis: int := 15000
  /** `SAM_PENALTY_EACH`: what a caught declarer pays each other player. */
  const SamPenaltyEach: int := 20
  /** Points moved when a QUAD cuts a single 2, and a pair of 2s. */
  const CutSingleTwo: int := 5
  const CutPairTwo: int := 10

  datatype Phase = Lobby | DeclareSam | Playing | RoundEnd

  /** The trick: the cards last played, their combination and who played them. */
  datatype Table = Table(cards: seq<Card>, combo: Option<Combo>, holder: Option<PlayerId>)

  /** The declaration window: its deadline and each player's last answer. */
  datatype Declare = Declare(deadline: int, choices: map<PlayerId, bool>)

  datatype Sam = Sam(declaredBy: Option<PlayerId>, active: bool, failed: bool,
                     penaltyApplied: bool, rewardApplied: bool)

  /** The Báo-1 watch: `pid` is down to one card, `prevPid` played just before
      them, and `offender` failed to lead their highest single. */
  datatype Bao1 = Bao1(active: bool, pid: Option<PlayerId>, prevPid: Option<PlayerId>,
                       offender: Option<PlayerId>, violated: bool, triggered: bool)

  datatype RoomState = RoomState(
    maxPlayers: nat,
    players: seq<PlayerId>,
    host: Option<PlayerId>,
    phase: Phase,
    started: bool,
    turnIndex: nat,
    lastWinner: Option<PlayerId>,
    hands: map<PlayerId, seq<Card>>,
    points: map<PlayerId, int>,
    playedAny: map<PlayerId, bool>,
    table: Table,
    passed: set<PlayerId>,
    declare: Declare,
    sam: Sam,
    bao1: Bao1,
    lastTurn: Option<PlayerId>)

  /** What the room announces while a card play is resolved. */
  datatype Event =
    | Bao1Warning(offender: PlayerId)
    | TwoCut(cutter: PlayerId, victim: PlayerId, amount: int)
    | SamPenalized(declarer: PlayerId)
    | SamCaughtEnd(catcher: PlayerId)
    | Bao1Announced(pid: PlayerId)
    | LastCardReminder(pid: PlayerId)
    | SamWon(declarer: PlayerId)

  /** The payload of a successful command. */
  datatype Reply =
    | Joined
    | AlreadySeated
    | Started
    | WonAtDeal(winner: PlayerId)
    | Declared
    | Passed
    | Played(events: seq<Event>)
    | Won(winner: PlayerId, events: seq<Event>)
    | SamCaught(loser: PlayerId, catcher: PlayerId, events: seq<Event>)

  /** A command's reply and the room after it. */
  datatype Step = Step(result: Result<Reply>, room: RoomState)

  const EmptyTable := Table([], None, None)
  const NoSam := Sam(None, false, false, false, false)
  const NoBao1 := Bao1(false, None, None, None, false, false)

  /** The constructor. */
  function NewRoom(maxPlayers: nat): (s: RoomState)
    ensures s.players == [] && s.phase == Lobby && !s.started
    ensures s.hands == map[] && s.points == map[] && s.playedAny == map[]
    ensures s.maxPlayers == maxPlayers && s.host == None && s.lastWinner == None && s.lastTurn == None
    ensures s.table == EmptyTable && s.passed == {} && s.sam == NoSam && s.bao1 == NoBao1
  {
    RoomState(maxPlayers, [], None, Lobby, false, 0, None, map[], map[], map[],
              EmptyTable, {}, Declare(0, map[]), NoSam, NoBao1, None)
  }

  /** `turnId`: the player whose turn it is, if the pointer is on a seat. */
  function TurnId(s: RoomState): (t: Option<PlayerId>)
    ensures t.Some? <==> s.turnIndex < |s.players|
    ensures t.Some? ==> t.value in s.players && t.value == s.players[s.turnIndex]
  {
    if s.turnIndex < |s.players| then Some(s.players[s.turnIndex]) else None
  }

  // ---------------------------------------------------------------------
  // Seating.

  /** `addPlayer`. A returning player keeps the points they had. */
  function AddPlayer(s: RoomState, pid: PlayerId): (st: Step)
    ensures st.result.Err? ==> st.room == s
    ensures st.result == Err(RoomFull) <==> pid !in s.players && |s.players| >= s.maxPlayers
    ensures pid in s.players ==> st == Step(Ok(AlreadySeated), s)
    ensures st.result == Ok(Joined) ==>
              && pid !in s.players
              && st.room.players == s.players + [pid]
              && st.room.host == (if s.host.None? then Some(pid) else s.host)
              && Get(st.room.points, pid) == Get(s.points, pid)
              && (forall q :: q != pid ==> Get(st.room.points, q) == Get(s.points, q))
              && pid in st.room.points && pid in st.room.hands && pid in st.room.playedAny
    ensures st.result == Ok(Joined) ==>
              && st.room == s.(players := st.room.players, host := st.room.host, points := st.room.points,
                               hands := st.room.hands, playedAny := st.room.playedAny)
              && st.room.hands - {pid} == s.hands - {pid}
              && HandOf(st.room.hands, pid) == HandOf(s.hands, pid)
              && st.room.playedAny - {pid} == s.playedAny - {pid}
              && st.room.playedAny[pid] == (pid in s.playedAny && s.playedAny[pid])
  {
    if pid in s.players then Step(Ok(AlreadySeated), s)
    else if |s.players| >= s.maxPlayers then Step(Err(RoomFull), s)
    else
      Step(Ok(Joined), s.(
        players := s.players + [pid],
        host := if s.host.None? then Some(pid) else s.host,
        points := if pid in s.points then s.points else s.points[pid := 0],
        hands := if pid in s.hands then s.hands else s.hands[pid := []],
        playedAny := if pid in s.playedAny then s.playedAny else s.playedAny[pid := false]))
  }

  /** `resetTrick`. */
  function ResetTrick(s: RoomState): (r: RoomState)
    ensures r.table == EmptyTable && r.passed == {}
    ensures r.(table := s.table, passed := s.passed) == s
  {
    s.(table := EmptyTable, passed := {})
  }

  /** `newRound(force)`: back to the lobby with no trick, Sâm or Báo-1 state;
      with `force` every seated player's hand is emptied. */
  function NewRound(s: RoomState, force: bool): (r: RoomState)
    ensures r.phase == Lobby && !r.started && r.turnIndex == 0
    ensures r.table == EmptyTable && r.passed == {} && r.sam == NoSam && r.bao1 == NoBao1
    ensures r.players == s.players && r.points == s.points && r.playedAny == s.playedAny
    ensures force ==> forall p :: p in s.players ==> p in r.hands && r.hands[p] == []
    ensures force ==> r.hands.Keys == s.hands.Keys + set p | p in s.players
    ensures forall p :: p in s.hands && (!force || p !in s.players) ==> p in r.hands && r.hands[p] == s.hands[p]
    ensures !force ==> r.hands == s.hands
    ensures r == s.(phase := Lobby, started := false, turnIndex := 0, table := EmptyTable, passed := {},
                    declare := Declare(0, map[]), sam := NoSam, bao1 := NoBao1, lastTurn := None, hands := r.hands)
  {
    var hands := if force then EmptyHands(s.hands, s.players) else s.hands;
    ResetTrick(s).(phase := Lobby, started := false, turnIndex := 0, declare := Declare(0, map[]),
                   sam := NoSam, bao1 := NoBao1, lastTurn := None, hands := hands)
  }

  /** `for (const p of players) hands[p.id] = []`. */
  function EmptyHands(hands: map<PlayerId, seq<Card>>, players: seq<PlayerId>): (r: map<PlayerId, seq<Card>>)
    ensures r.Keys == hands.Keys + set p | p in players
    ensures forall p :: p in r ==> r[p] == if p in players then [] else hands[p]
  {
    map p | p in hands.Keys + (set q | q in players) :: if p in players then [] else hands[p]
  }

  /** `removePlayer`: the player leaves; their hand, played flag, pass and
      declaration answer go with them, the host passes to the first remaining
      seat, and fewer than two players forces a new round. Points, the seat
      limit and the last winner are always kept; with two or more players
      left the phase, the table, the Sâm and Báo-1 records are kept too. */
  function RemovePlayer(s: RoomState, pid: PlayerId): (r: RoomState)
    ensures r.players == Without(s.players, pid)
    ensures pid !in r.players && pid !in r.hands && pid !in r.playedAny && pid !in r.passed
    ensures r.points == s.points
    ensures r.turnIndex < |r.players| || r.turnIndex == 0
    ensures s.host == Some(pid) ==> r.host == (if |r.players| > 0 then Some(r.players[0]) else None)
    ensures |r.players| < 2 ==> r.phase == Lobby && !r.started && (forall p :: p in r.players ==> p in r.hands && r.hands[p] == [])
    ensures |r.players| < 2 ==> r.table == EmptyTable && r.sam == NoSam && r.bao1 == NoBao1
    ensures |r.players| >= 2 ==> r == Unseat(s, pid)
    ensures r.maxPlayers == s.maxPlayers && r.lastWinner == s.lastWinner
    ensures s.host != Some(pid) ==> r.host == s.host
    ensures s.turnIndex < |r.players| ==> r.turnIndex == s.turnIndex
    ensures pid !in r.declare.choices
    ensures forall p :: p in s.hands && p != pid && (|r.players| >= 2 || p !in r.players) ==>
              p in r.hands && r.hands[p] == s.hands[p]
  {
    var s1 := Unseat(s, pid);
    if |s1.players| < 2 then NewRound(s1, true) else s1
  }

  /** The first half of `removePlayer`: every per-player entry of `pid` goes,
      the host moves on and the turn pointer is pulled back into the roster. */
  function Unseat(s: RoomState, pid: PlayerId): (r: RoomState)
    ensures r == s.(players := r.players, hands := r.hands, playedAny := r.playedAny, passed := r.passed,
                    declare := r.declare, host := r.host, turnIndex := r.turnIndex)
    ensures r.players == Without(s.players, pid)
    ensures r.hands == s.hands - {pid} && r.playedAny == s.playedAny - {pid} && r.passed == s.passed - {pid}
    ensures r.declare == s.declare.(choices := s.declare.choices - {pid})
    ensures r.host == if s.host != Some(pid) then s.host else if |r.players| > 0 then Some(r.players[0]) else None
    ensures r.turnIndex == if s.turnIndex < |r.players| then s.turnIndex else 0
  {
    var players := Without(s.players, pid);
    s.(
      players := players,
      hands := s.hands - {pid},
      playedAny := s.playedAny - {pid},
      passed := s.passed - {pid},
      declare := s.declare.(choices := s.declare.choices - {pid}),
      host := if s.host == Some(pid) then (if |players| > 0 then Some(players[0]) else None) else s.host,
      turnIndex := if s.turnIndex >= |players| then 0 else s.turnIndex)
  }

  // ---------------------------------------------------------------------
  // Dealing and the declaration window.

  /** `startGame`, dealing from `deck` (the shuffled deck) at time `now`. */
  function StartGame(s: RoomState, deck: seq<Card>, now: int): (st: Step)
    requires |s.players| * HandSize <= |deck|
    ensures st.result.Err? ==> st.room == s
    ensures st.result == Err(AlreadyStarted) <==> s.started
    ensures st.result == Err(Need2Players) <==> !s.started && |s.players| < 2
    ensures st.result.Ok? ==> st.room.players == s.players && st.room.points == s.points && st.room.maxPlayers == s.maxPlayers
    ensures st.result == Ok(Started) ==>
              st.room.phase == DeclareSam && st.room.started && st.room.declare == Declare(now + DeclareMillis, map[])
    ensures st.result == Ok(Started) ==> st.room.hands == DealHands(s.hands, s.players, deck)
    ensures st.result.Ok? && st.result.value.WonAtDeal? ==>
              && st.result.value.winner in s.players
              && st.room.hands == DealHands(s.hands, s.players, deck)[st.result.value.winner := []]
    ensures st.result.Ok? ==>
              && (st.result.value.Started? || st.result.value.WonAtDeal?)
              && st.room.turnIndex == OpeningTurn(s.players, s.lastWinner)
              && st.room.playedAny == ClearPlayed(s.playedAny, s.players)
              && st.room.table == EmptyTable && st.room.passed == {}
              && st.room.sam == NoSam && st.room.bao1 == NoBao1
    ensures st.result == Ok(Started) ==>
              st.room == s.(hands := st.room.hands, playedAny := st.room.playedAny, started := true,
                            phase := DeclareSam, declare := st.room.declare, sam := NoSam, bao1 := NoBao1,
                            lastTurn := None, turnIndex := st.room.turnIndex, table := EmptyTable, passed := {})
    ensures st.result.Ok? && st.result.value.WonAtDeal? ==>
              st.room == s.(hands := st.room.hands, playedAny := st.room.playedAny, started := false,
                            phase := RoundEnd, declare := Declare(now + DeclareMillis, map[]), sam := NoSam,
                            bao1 := NoBao1, lastTurn := None, turnIndex := st.room.turnIndex, table := EmptyTable,
                            passed := {}, lastWinner := Some(st.result.value.winner))
  {
    if s.started then Step(Err(AlreadyStarted), s)
    else if |s.players| < 2 then Step(Err(Need2Players), s)
    else
      var dealt := DealHands(s.hands, s.players, deck);
      var s1 := ResetTrick(s).(
        hands := dealt,
        playedAny := ClearPlayed(s.playedAny, s.players),
        started := true,
        phase := DeclareSam,
        declare := Declare(now + DeclareMillis, map[]),
        sam := NoSam,
        bao1 := NoBao1,
        lastTurn := None,
        turnIndex := OpeningTurn(s.players, s.lastWinner));
      var w := FindFirst(s.players, p => WhiteWin(HandOf(dealt, p)));
      if w < |s.players| then
        var p := s.players[w];
        Step(Ok(WonAtDeal(p)), s1.(hands := dealt[p := []], started := false, phase := RoundEnd, lastWinner := Some(p)))
      else Step(Ok(Started), s1)
  }

  /** The hands after the deal: every seated hand emptied, then ten passes of
      cards popped off the end of the deck. */
  function DealHands(hands: map<PlayerId, seq<Card>>, players: seq<PlayerId>, deck: seq<Card>): map<PlayerId, seq<Card>>
    requires |players| * HandSize <= |deck|
  {
    Deal(EmptyHands(hands, players), players, Popped(deck, HandSize * |players|), HandSize)
  }

  /** `playedAny[p.id] = false` for every seated player. */
  function ClearPlayed(playedAny: map<PlayerId, bool>, players: seq<PlayerId>): (r: map<PlayerId, bool>)
    ensures r.Keys == playedAny.Keys + set p | p in players
    ensures forall p :: p in players ==> !r[p]
  {
    map p | p in playedAny.Keys + (set q | q in players) :: if p in players then false else playedAny[p]
  }

  /** The last round's winner leads if still seated, otherwise seat 0. */
  function OpeningTurn(players: seq<PlayerId>, lastWinner: Option<PlayerId>): (t: nat)
    ensures lastWinner.Some? && lastWinner.value in players ==> t < |players| && players[t] == lastWinner.value
    ensures lastWinner.None? || lastWinner.value !in players ==> t == 0
  {
    if lastWinner.Some? && lastWinner.value in players then IndexOf(players, lastWinner.value) else 0
  }

  /** `declareSam`: last answer wins. */
  function DeclareSamCmd(s: RoomState, pid: PlayerId, flag: bool): (st: Step)
    ensures st.result.Err? ==> st.room == s
    ensures st.result == Err(NotDeclarePhase) <==> s.phase != DeclareSam
    ensures st.result == Err(NotInRoom) <==> s.phase == DeclareSam && pid !in s.players
    ensures st.result.Ok? ==> st.room == s.(declare := s.declare.(choices := s.declare.choices[pid := flag]))
  {
    if s.phase != DeclareSam then Step(Err(NotDeclarePhase), s)
    else if pid !in s.players then Step(Err(NotInRoom), s)
    else Step(Ok(Declared), s.(declare := s.declare.(choices := s.declare.choices[pid := flag])))
  }

  /** A declaration answer of `true`. */
  predicate SaysSam(choices: map<PlayerId, bool>, p: PlayerId) {
    p in choices && choices[p]
  }

  /** `tickDeclarePhase(now)`: once the window has closed, the first seated
      player who said yes becomes the Sâm declarer and leads; play begins. */
  function TickDeclarePhase(s: RoomState, now: int): (r: (bool, RoomState))
    ensures !r.0 <==> s.phase != DeclareSam || now < s.declare.deadline
    ensures !r.0 ==> r.1 == s
    ensures r.0 ==> r.1.phase == Playing && r.1.players == s.players && r.1.points == s.points && r.1.hands == s.hands
  {
    if s.phase != DeclareSam then (false, s)
    else if now < s.declare.deadline then (false, s)
    else
      var i := FindFirst(s.players, p => SaysSam(s.declare.choices, p));
      if i < |s.players| then
        var d := s.players[i];
        (true, s.(sam := s.sam.(declaredBy := Some(d), active := true), turnIndex := IndexOf(s.players, d), phase := Playing))
      else (true, s.(phase := Playing))
  }

  // ---------------------------------------------------------------------
  // Turns and passing.

  /** `advanceTurnSkippingPassed` from seat `start`: iteration `tries` moves
      the pointer to `(start + tries) % n`; the loop stops at a player who has
      not passed, or unconditionally once `tries` exceeds `n + 1`. */
  function NextTurn(players: seq<PlayerId>, passed: set<PlayerId>, start: nat, tries: nat): (t: nat)
    requires |players| > 0 && 1 <= tries <= |players| + 2
    ensures t < |players|
    decreases |players| + 2 - tries
  {
    var i := Seat(start, tries, |players|);
    if tries > |players| + 1 then i
    else if players[i] in passed then NextTurn(players, passed, start, tries + 1)
    else i
  }

  /** The seat `offset` places after `start` round a table of `n`. */
  function Seat(start: nat, offset: nat, n: nat): (i: nat)
    requires n > 0
    ensures i < n
  {
    (start + offset) % n
  }

  function AdvanceTurn(s: RoomState): (r: RoomState)
    ensures r == s.(turnIndex := r.turnIndex)
    ensures |s.players| > 0 ==> r.turnIndex < |s.players|
  {
    if |s.players| == 0 then s
    else s.(turnIndex := NextTurn(s.players, s.passed, s.turnIndex, 1))
  }

  /** `pass`. When everyone but the holder has passed, the trick is cleared
      and the holder leads. */
  function Pass(s: RoomState, pid: PlayerId): (st: Step)
    ensures st.result.Err? ==> st.room == s
    ensures st.result == Err(NotPlaying) <==> s.phase != Playing || !s.started
    ensures st.result == Err(NotYourTurn) <==> s.phase == Playing && s.started && Some(pid) != TurnId(s)
    ensures st.result == Err(CannotPassOnEmpty) <==>
              s.phase == Playing && s.started && Some(pid) == TurnId(s) && s.table.combo.None?
    ensures st.result.Ok? ==> st.room.points == s.points && st.room.hands == s.hands && st.room.players == s.players
  {
    if s.phase != Playing || !s.started then Step(Err(NotPlaying), s)
    else if Some(pid) != TurnId(s) then Step(Err(NotYourTurn), s)
    else if s.table.combo.None? then Step(Err(CannotPassOnEmpty), s)
    else
      var passed := s.passed + {pid};
      var s1 := AdvanceTurn(s.(passed := passed));
      if s.table.holder.Some? && |passed| >= |s.players| - 1 then
        var idx := IndexOf(s.players, s.table.holder.value);
        Step(Ok(Passed), ResetTrick(s1).(turnIndex := if idx < |s.players| then idx else 0))
      else Step(Ok(Passed), s1)
  }

  // ---------------------------------------------------------------------
  // Sâm resolution.

  /** `applySamPenalty`, corrected: the caught declarer pays 20 to every other
      seated player and exactly as much as those players receive. */
  function ApplySamPenalty(s: RoomState): (r: (RoomState, seq<Event>))
    ensures !s.sam.active || s.sam.penaltyApplied || s.sam.declaredBy.None? ==> r == (s, [])
    ensures r.0 == s.(points := r.0.points, sam := r.0.sam)
    ensures r.0.points.Keys >= s.points.Keys
    ensures Total(r.0.points) == Total(s.points)
  {
    if !s.sam.active || s.sam.penaltyApplied then (s, [])
    else if s.sam.declaredBy.None? then (s, [])
    else
      var d := s.sam.declaredBy.value;
      var others := Without(s.players, d);
      var charged := Credit(s.points, d, -SamPenaltyEach * |others|);
      TotalCredit(s.points, d, -SamPenaltyEach * |others|);
      TotalCreditEach(charged, others, SamPenaltyEach);
      (s.(points := CreditEach(charged, others, SamPenaltyEach), sam := s.sam.(penaltyApplied := true)),
       [SamPenalized(d)])
  }

  /** `applySamPenalty` as room.js writes it: the declarer pays for
      `players.length - 1` others, but every seated player other than the
      declarer is credited. */
  function ApplySamPenaltyAsWritten(s: RoomState): (r: (RoomState, seq<Event>))
    ensures !s.sam.active || s.sam.penaltyApplied || s.sam.declaredBy.None? ==> r == (s, [])
    ensures r.0 == s.(points := r.0.points, sam := r.0.sam)
  {
    if !s.sam.active || s.sam.penaltyApplied then (s, [])
    else if s.sam.declaredBy.None? then (s, [])
    else
      var d := s.sam.declaredBy.value;
      var charged := Credit(s.points, d, -SamPenaltyEach * (|s.players| - 1));
      (s.(points := CreditEach(charged, Without(s.players, d), SamPenaltyEach), sam := s.sam.(penaltyApplied := true)),
       [SamPenalized(d)])
  }

  /** `applySamReward`: marks the reward; the points follow from scoring. */
  function ApplySamReward(s: RoomState): (r: (RoomState, seq<Event>))
    ensures r.0 == s.(sam := r.0.sam) && r.0.sam == s.sam.(rewardApplied := r.0.sam.rewardApplied)
    ensures r.0.sam.rewardApplied != s.sam.rewardApplied <==>
              s.sam.active && !s.sam.failed && !s.sam.rewardApplied && s.sam.declaredBy.Some?
  {
    if !s.sam.active || s.sam.failed || s.sam.rewardApplied then (s, [])
    else if s.sam.declaredBy.None? then (s, [])
    else (s.(sam := s.sam.(rewardApplied := true)), [SamWon(s.sam.declaredBy.value)])
  }

  // ---------------------------------------------------------------------
  // Playing cards.

  /** An accepted play: the cards taken from the hand and their combination. */
  datatype Move = Move(chosen: seq<Card>, combo: Combo)

  /** The checks of `play`, in the order room.js makes them. */
  function PlayChecks(s: RoomState, pid: PlayerId, ids: seq<Card>): (r: Result<Move>)
    ensures r.Ok? ==> r.value.chosen == Select(HandOf(s.hands, pid), ids) && |r.value.chosen| == |ids|
    ensures r.Ok? ==> Classify(r.value.chosen) == Ok(r.value.combo) && CanBeat(s.table.combo, r.value.combo)
  {
    if s.phase != Playing || !s.started then Err(NotPlaying)
    else if Some(pid) != TurnId(s) then Err(NotYourTurn)
    else if pid in s.passed then Err(YouPassedThisTrick)
    else
      var chosen := Select(HandOf(s.hands, pid), ids);
      if |chosen| != |ids| then Err(CardNotInHand)
      else
        match Classify(chosen)
        case Err(reason) => Err(reason)
        case Ok(combo) => if !CanBeat(s.table.combo, combo) then Err(CannotBeatTable) else Ok(Move(chosen, combo))
  }

  /** The Báo-1 rule: while a player is down to one card, the player who
      played just before them must lead their highest card when playing a
      single; otherwise they are recorded as the offender. */
  function WatchBao1(b: Bao1, pid: PlayerId, hand: seq<Card>, m: Move): (r: (Bao1, seq<Event>))
    requires m.combo.kind == Single ==> |m.chosen| == 1
    ensures r.1 != [] ==> r.0 == b.(violated := true, offender := Some(pid)) && r.1 == [Bao1Warning(pid)]
    ensures r.1 == [] ==> r.0 == b
    ensures r.1 != [] <==>
              b.active && b.pid != Some(pid) && b.prevPid == Some(pid) && m.combo.kind == Single &&
              Some(m.chosen[0]) != HighestCard(hand)
  {
    if b.active && b.pid != Some(pid) && b.prevPid == Some(pid) && m.combo.kind == Single
       && Some(m.chosen[0]) != HighestCard(hand)
    then (b.(violated := true, offender := Some(pid)), [Bao1Warning(pid)])
    else (b, [])
  }

  /** Points a QUAD cuts from the holder of a single 2 or a pair of 2s. */
  function CutAmount(prev: Option<Combo>, combo: Combo): (amt: int)
    ensures amt == 0 || amt == CutSingleTwo || amt == CutPairTwo
    ensures amt != 0 <==> combo.kind == Quad && prev.Some? && prev.value.rank == Two &&
                          (prev.value.kind == Single || prev.value.kind == Pair)
    ensures combo.kind == Quad && prev.Some? && prev.value.rank == Two ==>
              && (prev.value.kind == Single ==> amt == 5)
              && (prev.value.kind == Pair ==> amt == 10)
  {
    if prev.Some? && prev.value.kind == Single && prev.value.rank == Two && combo.kind == Quad then CutSingleTwo
    else if prev.Some? && prev.value.kind == Pair && prev.value.rank == Two && combo.kind == Quad then CutPairTwo
    else 0
  }

  /** "Cut the two": the cut points move from the previous holder to the player. */
  function CutTwo(points: map<PlayerId, int>, t: Table, pid: PlayerId, combo: Combo): (r: (map<PlayerId, int>, seq<Event>))
    ensures Total(r.0) == Total(points)
    ensures t.holder.Some? && t.holder.value != pid ==>
              && Get(r.0, t.holder.value) == Get(points, t.holder.value) - CutAmount(t.combo, combo)
              && Get(r.0, pid) == Get(points, pid) + CutAmount(t.combo, combo)
    ensures forall q :: Some(q) != t.holder && q != pid ==> Get(r.0, q) == Get(points, q)
    ensures points.Keys <= r.0.Keys <= points.Keys + {pid} + (if t.holder.Some? then {t.holder.value} else {})
  {
    var amt := CutAmount(t.combo, combo);
    if amt != 0 && t.holder.Some? && t.holder.value != pid then
      (Transfer(points, t.holder.value, pid, amt), [TwoCut(pid, t.holder.value, amt)])
    else (points, [])
  }

  /** The Sâm declarer holds the table and somebody else beats them. */
  predicate Catches(s: RoomState, pid: PlayerId) {
    && s.sam.active && s.sam.declaredBy.Some?
    && s.table.holder == s.sam.declaredBy
    && Some(pid) != s.sam.declaredBy
    && s.table.combo.Some?
  }

  /** `play(pid, cardIds)`. */
  function Play(s: RoomState, pid: PlayerId, ids: seq<Card>): (st: Step)
    ensures st.result.Err? ==> st.room == s
    ensures st.result.Err? <==> PlayChecks(s, pid, ids).Err?
    ensures st.result.Err? ==> st.result.reason == PlayChecks(s, pid, ids).reason
    ensures Total(st.room.points) == Total(s.points)
  {
    match PlayChecks(s, pid, ids)
    case Err(reason) => Step(Err(reason), s)
    case Ok(m) =>
      var (s1, events) := Penalties(s, pid, m);
      if Catches(s, pid) then CatchSam(s1, pid, m, events)
      else PlayCards(s1, pid, ids, m, events)
  }

  /** The rules applied before the cards move: the Báo-1 watch and the cut
      of a 2. They touch only the Báo-1 record and the points. */
  function Penalties(s: RoomState, pid: PlayerId, m: Move): (r: (RoomState, seq<Event>))
    requires m.combo.kind == Single ==> |m.chosen| == 1
    ensures r.0 == s.(bao1 := r.0.bao1, points := r.0.points)
    ensures r.0.bao1 == WatchBao1(s.bao1, pid, HandOf(s.hands, pid), m).0
    ensures r.0.points == CutTwo(s.points, s.table, pid, m.combo).0
  {
    var (bao1, watched) := WatchBao1(s.bao1, pid, HandOf(s.hands, pid), m);
    var (points, cut) := CutTwo(s.points, s.table, pid, m.combo);
    (s.(bao1 := bao1, points := points), watched + cut)
  }

  /** The Sâm declarer is caught: they pay, the round ends at once, and the
      catcher's cards are shown on the table without leaving their hand. */
  function CatchSam(s: RoomState, pid: PlayerId, m: Move, events: seq<Event>): (st: Step)
    requires s.sam.declaredBy.Some?
    ensures st.result.Ok? && st.result.value.SamCaught?
    ensures st.room.hands == s.hands && st.room.playedAny == s.playedAny && st.room.players == s.players
    ensures st.room.phase == RoundEnd && !st.room.started && st.room.sam.failed
    ensures st.room.table == Table(m.chosen, Some(m.combo), Some(pid))
    ensures Total(st.room.points) == Total(s.points)
  {
    var d := s.sam.declaredBy.value;
    var (s2, penalty) := ApplySamPenalty(s.(sam := s.sam.(failed := true)));
    Step(Ok(SamCaught(d, pid, events + penalty + [SamCaughtEnd(pid)])),
         s2.(started := false, phase := RoundEnd, table := Table(m.chosen, Some(m.combo), Some(pid))))
  }

  /** The ordinary play: the cards leave the hand and go on the table; one
      card left opens the Báo-1 watch, none left wins the round. */
  function PlayCards(s: RoomState, pid: PlayerId, ids: seq<Card>, m: Move, events: seq<Event>): (st: Step)
    ensures st.result.Ok?
    ensures st.room.players == s.players && st.room.points == s.points
    ensures st.room.hands == s.hands[pid := Drop(HandOf(s.hands, pid), ids)]
    ensures st.room.playedAny == s.playedAny[pid := true]
    ensures st.room.table == Table(m.chosen, Some(m.combo), Some(pid))
    ensures st.room.lastTurn == Some(pid)
    ensures |Drop(HandOf(s.hands, pid), ids)| == 1 ==>
              st.room.bao1 == Bao1(true, Some(pid), s.lastTurn, None, false, false)
    ensures |Drop(HandOf(s.hands, pid), ids)| == 0 <==> st.result.value.Won?
    ensures st.result.value.Won? ==>
              st.room.phase == RoundEnd && !st.room.started && st.room.lastWinner == Some(pid)
    ensures |Drop(HandOf(s.hands, pid), ids)| > 1 ==> st.room.bao1 == s.bao1
    ensures st.result.value.Won? ==>
              st.room.bao1 == s.bao1.(triggered := s.bao1.triggered ||
                (s.bao1.active && s.bao1.pid == Some(pid) && s.bao1.violated && s.bao1.offender.Some?))
  {
    var left := Drop(HandOf(s.hands, pid), ids);
    var s4 := LayDown(s, pid, left, m);
    var announced := if |left| == 1 then [Bao1Announced(pid)] else [];
    if |left| == 0 then
      var (s6, rewarded) := GoOut(s4, pid);
      Step(Ok(Won(pid, events + announced + rewarded)), s6)
    else
      var reminder := if |left| == 1 then [LastCardReminder(pid)] else [];
      Step(Ok(Played(events + announced + reminder)), AdvanceTurn(s4))
  }

  /** The cards leave the hand (`left` is what remains) and go on the table;
      a last card opens the Báo-1 watch on `pid`. */
  function LayDown(s: RoomState, pid: PlayerId, left: seq<Card>, m: Move): (r: RoomState)
    ensures r == s.(playedAny := r.playedAny, hands := r.hands, lastTurn := r.lastTurn, table := r.table, bao1 := r.bao1)
    ensures r.hands == s.hands[pid := left] && r.playedAny == s.playedAny[pid := true] && r.lastTurn == Some(pid)
    ensures r.table == Table(m.chosen, Some(m.combo), Some(pid))
    ensures r.bao1 == if |left| == 1 then Bao1(true, Some(pid), s.lastTurn, None, false, false) else s.bao1
  {
    var s2 := s.(playedAny := s.playedAny[pid := true], hands := s.hands[pid := left], lastTurn := Some(pid),
                 table := Table(m.chosen, Some(m.combo), Some(pid)));
    if |left| == 1 then s2.(bao1 := Bao1(true, Some(pid), s.lastTurn, None, false, false)) else s2
  }

  /** `pid` played their last card: the round ends with them as winner, a
      pending Báo-1 penalty is triggered and a Sâm declarer who won is
      rewarded. */
  function GoOut(s: RoomState, pid: PlayerId): (r: (RoomState, seq<Event>))
    ensures r.0 == s.(started := false, phase := RoundEnd, lastWinner := Some(pid), bao1 := r.0.bao1, sam := r.0.sam)
    ensures r.0.bao1 == s.bao1.(triggered := s.bao1.triggered ||
              (s.bao1.active && s.bao1.pid == Some(pid) && s.bao1.violated && s.bao1.offender.Some?))
  {
    var b := s.bao1;
    var triggered := b.active && b.pid == Some(pid) && b.violated && b.offender.Some?;
    var s5 := s.(started := false, phase := RoundEnd, lastWinner := Some(pid),
                 bao1 := if triggered then b.(triggered := true) else b);
    if s5.sam.active && s5.sam.declaredBy == Some(pid) && !s5.sam.failed then ApplySamReward(s5) else (s5, [])
  }

  // ---------------------------------------------------------------------
  // Scoring the round.

  function Bao1InfoOf(b: Bao1): Bao1Info {
    Bao1Info(b.pid, b.offender, b.violated, b.triggered)
  }

  function SamInfoOf(m: Sam): SamInfo {
    SamInfo(m.active, m.declaredBy, m.failed)
  }

  /** `finishAndScore`: the round's score sheet is added to the points. */
  function FinishAndScore(s: RoomState): (r: (Option<PlayerId>, RoomState))
    ensures r.1 == s.(points := r.1.points)
    ensures r.0.None? <==> |s.players| == 0
    ensures r.0.Some? ==> r.0.value in s.players
    ensures r.1.points.Keys >= s.points.Keys + set p | p in s.players
    ensures var sc := ComputeRoundScores(s.players, s.hands, s.playedAny, Bao1InfoOf(s.bao1), SamInfoOf(s.sam));
            && r.0 == sc.winner
            && forall p :: Get(r.1.points, p) == Get(s.points, p) + Get(sc.delta, p)
  {
    var sc := ComputeRoundScores(s.players, s.hands, s.playedAny, Bao1InfoOf(s.bao1), SamInfoOf(s.sam));
    (sc.winner, s.(points := ApplyDeltas(s.points, sc.delta)))
  }
}

=== FILE: room_props.dfy ===
/** Properties of the room: the well-formedness invariant every command keeps,
    conservation of points, how the turn pointer moves, how tricks are
    cleared, how the Sâm declarer is chosen and penalised, and what a play
    does to the hands and the table. */
module RoomProps {
  import opened Base
  import opened Cards
  import opened Rules
  import opened Ledger
  import opened Scoring
  import opened Hands
  import opened Dealing
  import opened Room

  ghost predicate Disjoint(a: seq<Card>, b: seq<Card>) {
    forall c :: c in a ==> c !in b
  }

  /** No card is held twice, whether by one player or by two. */
  ghost predicate HandsOk(hands: map<PlayerId, seq<Card>>) {
    && (forall p :: p in hands ==> Distinct(hands[p]))
    && (forall p, q :: p in hands && q in hands && p != q ==> Disjoint(hands[p], hands[q]))
  }

  /** Hands that only keep cards their owner already held stay well formed. */
  lemma HandsShrink(a: map<PlayerId, seq<Card>>, b: map<PlayerId, seq<Card>>)
    requires HandsOk(a)
    requires forall p :: p in b ==> Distinct(b[p])
    requires forall p, c :: p in b && c in b[p] ==> p in a && c in a[p]
    ensures HandsOk(b)
  {
  }

  lemma EmptyOneHand(hands: map<PlayerId, seq<Card>>, p: PlayerId)
    requires HandsOk(hands) && p in hands
    ensures HandsOk(hands[p := []]) && hands[p := []].Keys == hands.Keys
  {
    HandsShrink(hands, hands[p := []]);
  }

  /** Well-formed room: a duplicate-free roster within a capacity of at most
      five seats (ten cards each from 52), hand and
      played-flag entries exactly for the roster, a balance for every seated
      player, no card held twice, and a Báo-1 offender other than the Báo-1
      player. */
  ghost predicate Valid(s: RoomState) {
    && |s.players| <= s.maxPlayers <= MaxSeats
    && Distinct(s.players)
    && s.hands.Keys == (set p | p in s.players)
    && s.playedAny.Keys == (set p | p in s.players)
    && (forall p :: p in s.players ==> p in s.points)
    && HandsOk(s.hands)
    && (s.bao1.offender.None? || s.bao1.offender != s.bao1.pid)
    && (s.turnIndex < |s.players| || s.turnIndex == 0)
  }

  // ---------------------------------------------------------------------
  // The turn pointer.

  /** The loop stops at the first seat after `start`, going round, whose
      player has not passed. */
  lemma {:induction false} NextTurnFirstUnpassed(players: seq<PlayerId>, passed: set<PlayerId>, start: nat, tries: nat, d: nat)
    requires |players| > 0 && 1 <= tries <= d <= |players|
    requires players[Seat(start, d, |players|)] !in passed
    requires forall e :: tries <= e < d ==> players[Seat(start, e, |players|)] in passed
    ensures NextTurn(players, passed, start, tries) == Seat(start, d, |players|)
    decreases d - tries
  {
    if tries < d {
      NextTurnFirstUnpassed(players, passed, start, tries + 1, d);
    }
  }

  /** When everybody has passed the loop gives up after `n + 2` steps, leaving
      the pointer two seats after where it started. */
  lemma {:induction false} NextTurnAllPassed(players: seq<PlayerId>, passed: set<PlayerId>, start: nat, tries: nat)
    requires |players| > 0 && 1 <= tries <= |players| + 2
    requires forall p :: p in players ==> p in passed
    ensures NextTurn(players, passed, start, tries) == Seat(start, 2, |players|)
    decreases |players| + 2 - tries
  {
    var n := |players|;
    if tries <= n + 1 {
      assert players[Seat(start, tries, n)] in players;
      NextTurnAllPassed(players, passed, start, tries + 1);
    } else {
      SeatRound(start, 2, n);
    }
  }

  lemma {:induction false} NextTurnFinds(players: seq<PlayerId>, passed: set<PlayerId>, start: nat, tries: nat, e: nat)
    requires |players| > 0 && 1 <= tries <= e <= |players| + 1
    requires players[Seat(start, e, |players|)] !in passed
    ensures players[NextTurn(players, passed, start, tries)] !in passed
    decreases e - tries
  {
    if players[Seat(start, tries, |players|)] in passed {
      NextTurnFinds(players, passed, start, tries + 1, e);
    }
  }

  /** Going once round the table returns to the same seat. */
  lemma SeatRound(start: nat, k: nat, n: nat)
    requires n > 0
    ensures Seat(start, n + k, n) == Seat(start, k, n)
  {
    var a := start + k;
    assert a == (a / n) * n + a % n;
    assert a + n == (a / n + 1) * n + a % n;
    ModUnique(a + n, n, a / n + 1, a % n);
  }

  lemma MulLt(a: int, b: int, n: int)
    requires a < b && n > 0
    ensures a * n + n <= b * n
  {
    assert (a + 1) * n == a * n + n;
  }

  /** The remainder is determined by any quotient-remainder decomposition. */
  lemma ModUnique(x: int, n: int, q: int, r: int)
    requires n > 0 && 0 <= r < n && x == q * n + r
    ensures x % n == r
  {
    var q' := x / n;
    var r' := x % n;
    assert x == q' * n + r';
    if q' < q {
      MulLt(q', q, n);
    } else if q < q' {
      MulLt(q, q', n);
    }
  }

  /** Every seat is reached from `start` within one round. */
  function SeatOffset(start: nat, j: nat, n: nat): (e: nat)
    requires start < n && j < n
    ensures 1 <= e <= n && Seat(start, e, n) == j
  {
    if j > start then j - start
    else
      assert (j + n - start) + start == j + n;
      j + n - start
  }

  /** If anybody has not passed, the turn moves to a player who has not. */
  lemma NextTurnUnpassed(players: seq<PlayerId>, passed: set<PlayerId>, start: nat, j: nat)
    requires start < |players| && j < |players| && players[j] !in passed
    ensures players[NextTurn(players, passed, start, 1)] !in passed
  {
    var e := SeatOffset(start, j, |players|);
    NextTurnFinds(players, passed, start, 1, e);
  }

  // ---------------------------------------------------------------------
  // Passing.

  /** A pass that leaves only the holder in the trick clears it and gives the
      lead back to the holder; any other pass records the pass and moves the
      turn to a player still in the trick, if there is one. */
  lemma PassEffect(s: RoomState, pid: PlayerId)
    requires Valid(s)
    requires Pass(s, pid).result.Ok?
    ensures var r := Pass(s, pid).room;
            var clears := s.table.holder.Some? && |s.passed + {pid}| >= |s.players| - 1;
            && (clears ==> r.table == EmptyTable && r.passed == {} &&
                           (s.table.holder.value in s.players ==> r.players[r.turnIndex] == s.table.holder.value))
            && (!clears ==> r.table == s.table && r.passed == s.passed + {pid} &&
                            ((exists j :: 0 <= j < |s.players| && s.players[j] !in r.passed) ==>
                               r.turnIndex < |r.players| && r.players[r.turnIndex] !in r.passed))
  {
    var clears := s.table.holder.Some? && |s.passed + {pid}| >= |s.players| - 1;
    if !clears {
      if exists j :: 0 <= j < |s.players| && s.players[j] !in s.passed + {pid} {
        var j :| 0 <= j < |s.players| && s.players[j] !in s.passed + {pid};
        NextTurnUnpassed(s.players, s.passed + {pid}, s.turnIndex, j);
      }
    }
  }

  // ---------------------------------------------------------------------
  // The declaration window.

  /** Answering twice counts only the second answer. */
  lemma DeclareLastAnswerWins(s: RoomState, pid: PlayerId, first: bool, second: bool)
    ensures DeclareSamCmd(DeclareSamCmd(s, pid, first).room, pid, second) == DeclareSamCmd(s, pid, second)
  {
  }

  /** When the window closes the first seated player who said yes becomes
      the Sâm declarer and leads. */
  lemma TickChoosesFirst(s: RoomState, now: int, k: nat)
    requires Distinct(s.players)
    requires s.phase == DeclareSam && now >= s.declare.deadline
    requires k < |s.players| && SaysSam(s.declare.choices, s.players[k])
    requires forall j :: 0 <= j < k ==> !SaysSam(s.declare.choices, s.players[j])
    ensures var r := TickDeclarePhase(s, now);
            && r.0 && r.1.phase == Playing
            && r.1.sam.active && r.1.sam.declaredBy == Some(s.players[k])
            && r.1.turnIndex == k
  {
    var i := FindFirst(s.players, p => SaysSam(s.declare.choices, p));
    assert i == k;
  }

  /** Nobody said yes: play starts with the lead set at the deal. */
  lemma TickNoDeclarer(s: RoomState, now: int)
    requires s.phase == DeclareSam && now >= s.declare.deadline
    requires forall p :: p in s.players ==> !SaysSam(s.declare.choices, p)
    ensures TickDeclarePhase(s, now) == (true, s.(phase := Playing))
  {
  }

  // ---------------------------------------------------------------------
  // The Sâm penalty.

  /** With the declarer seated, the caught declarer pays 20 to each other
      player and the others each receive 20; nobody else is touched. */
  lemma SamPenaltyPoints(s: RoomState, q: PlayerId)
    requires Distinct(s.players)
    requires s.sam.active && !s.sam.penaltyApplied && s.sam.declaredBy.Some?
    ensures var d := s.sam.declaredBy.value;
            var r := ApplySamPenalty(s).0;
            && r.sam.penaltyApplied
            && (d in s.players ==> Get(r.points, d) == Get(s.points, d) - SamPenaltyEach * (|s.players| - 1))
            && (q != d && q in s.players ==> Get(r.points, q) == Get(s.points, q) + SamPenaltyEach)
            && (q != d && q !in s.players ==> Get(r.points, q) == Get(s.points, q))
  {
    var d := s.sam.declaredBy.value;
    var others := Without(s.players, d);
    WithoutDistinct(s.players, d);
    var charged := Credit(s.points, d, -SamPenaltyEach * |others|);
    CreditEachGet(charged, others, SamPenaltyEach, d);
    CreditEachGet(charged, others, SamPenaltyEach, q);
  }

  /** With the declarer seated in a duplicate-free roster room.js's
      penalty and the corrected one coincide. */
  lemma SamPenaltyAgrees(s: RoomState)
    requires Distinct(s.players)
    requires s.sam.declaredBy.Some? && s.sam.declaredBy.value in s.players
    ensures ApplySamPenaltyAsWritten(s) == ApplySamPenalty(s)
  {
    WithoutDistinct(s.players, s.sam.declaredBy.value);
  }

  /** room.js's penalty, once the declarer has left the room, credits
      every remaining player and so creates 20 points out of nothing. */
  lemma SamPenaltyAsWrittenInflates(s: RoomState)
    requires Distinct(s.players)
    requires s.sam.active && !s.sam.penaltyApplied && s.sam.declaredBy.Some?
    requires s.sam.declaredBy.value !in s.players
    ensures Total(ApplySamPenaltyAsWritten(s).0.points) == Total(s.points) + SamPenaltyEach
  {
    var d := s.sam.declaredBy.value;
    var n := |s.players|;
    WithoutDistinct(s.players, d);
    var charged := Credit(s.points, d, -SamPenaltyEach * (n - 1));
    TotalCredit(s.points, d, -SamPenaltyEach * (n - 1));
    TotalCreditEach(charged, s.players, SamPenaltyEach);
  }

  /** That state is reachable: a declarer who holds the table and leaves a
      room of three or more keeps the Sâm active and the table in their
      name, so the next player to beat the table catches an absent declarer,
      and room.js's penalty then inflates the total. */
  lemma DeclarerLeavesAndIsCaught(s: RoomState, pid: PlayerId)
    requires Valid(s) && |s.players| >= 3
    requires s.sam.active && !s.sam.penaltyApplied && s.sam.declaredBy.Some?
    requires s.table.holder == s.sam.declaredBy && s.table.combo.Some?
    requires pid != s.sam.declaredBy.value
    ensures var r := RemovePlayer(s, s.sam.declaredBy.value);
            && Catches(r, pid)
            && Total(ApplySamPenaltyAsWritten(r).0.points) == Total(r.points) + SamPenaltyEach
            && Total(ApplySamPenalty(r).0.points) == Total(r.points)
  {
    var d := s.sam.declaredBy.value;
    WithoutDistinct(s.players, d);
    var r := RemovePlayer(s, d);
    assert |r.players| >= 2;
    SamPenaltyAsWrittenInflates(r);
  }

  // ---------------------------------------------------------------------
  // Scoring the round.

  /** Adding the round's score sheet leaves the total of all points unchanged. */
  lemma FinishConserves(s: RoomState)
    requires Valid(s)
    ensures Total(FinishAndScore(s).1.points) == Total(s.points)
  {
    var sc := ComputeRoundScores(s.players, s.hands, s.playedAny, Bao1InfoOf(s.bao1), SamInfoOf(s.sam));
    assert Total(sc.delta) == 0 by {
      ScoresZeroSum(s.players, s.hands, s.playedAny, Bao1InfoOf(s.bao1), SamInfoOf(s.sam));
    }
    TotalApplyDeltas(s.points, sc.delta);
    assert FinishAndScore(s).1.points == ApplyDeltas(s.points, sc.delta);
  }

  /** Scoring a round without a Báo-1 override or a Sâm win charges each
      seated loser the loss of the hand they still hold, and pays the winner
      the whole pot. */
  lemma FinishPaysLosses(s: RoomState, p: PlayerId)
    requires p in s.players
    requires var sc := ComputeRoundScores(s.players, s.hands, s.playedAny, Bao1InfoOf(s.bao1), SamInfoOf(s.sam));
             !Bao1Override(Bao1InfoOf(s.bao1), sc.winner) && !IsSamWin(SamInfoOf(s.sam), sc.winner)
    ensures var (w, r) := FinishAndScore(s);
            && (Some(p) != w ==>
                  Get(r.points, p) == Get(s.points, p) - Loss(HandOf(s.hands, p), HasPlayed(s.playedAny, p), false))
            && (Some(p) == w ==>
                  Get(r.points, p) == Get(s.points, p) + Pot(s.players, s.hands, s.playedAny, false, w))
  {
    var sc := ComputeRoundScores(s.players, s.hands, s.playedAny, Bao1InfoOf(s.bao1), SamInfoOf(s.sam));
    NormalScores(s.players, s.hands, s.playedAny, Bao1InfoOf(s.bao1), SamInfoOf(s.sam), p);
    assert p in sc.delta;
  }

  // ---------------------------------------------------------------------
  // Playing cards.

  lemma HandDistinct(s: RoomState, pid: PlayerId)
    requires Valid(s)
    ensures Distinct(HandOf(s.hands, pid))
  {
  }

  /** For a seated player whose turn it is and who has not passed, the play
      is refused as a card not in hand exactly when the ids repeat a card or
      name a card the player does not hold. */
  lemma PlayCardNotInHand(s: RoomState, pid: PlayerId, ids: seq<Card>)
    requires Distinct(HandOf(s.hands, pid))
    requires s.phase == Playing && s.started && Some(pid) == TurnId(s) && pid !in s.passed
    ensures Play(s, pid, ids).result == Err(CardNotInHand) <==>
              !(Distinct(ids) && forall c :: c in ids ==> c in HandOf(s.hands, pid))
  {
    SelectAccepted(HandOf(s.hands, pid), ids);
    var chosen := Select(HandOf(s.hands, pid), ids);
    assert PlayChecks(s, pid, ids) == Err(CardNotInHand) <==> |chosen| != |ids| by {
      if |chosen| == |ids| {
        assert PlayChecks(s, pid, ids) == match Classify(chosen)
          case Err(reason) => Err(reason)
          case Ok(combo) => if !CanBeat(s.table.combo, combo) then Err(CannotBeatTable) else Ok(Move(chosen, combo));
        assert Classify(chosen).Err? ==> ComboReason(Classify(chosen).reason);
      }
    }
  }

  /** The refusals of `play`, each exactly in its own case and in the order
      the checks are made: not playing, not the player's turn, already passed
      this trick, cards not in hand, the classifier's reason, and a combination
      that does not beat the table. */
  lemma PlayRefusals(s: RoomState, pid: PlayerId, ids: seq<Card>)
    ensures var r := Play(s, pid, ids).result;
            var ready := s.phase == Playing && s.started;
            var turn := ready && Some(pid) == TurnId(s);
            var open := turn && pid !in s.passed;
            var chosen := Select(HandOf(s.hands, pid), ids);
            var held := open && |chosen| == |ids|;
            && (r == Err(NotPlaying) <==> !ready)
            && (r == Err(NotYourTurn) <==> ready && Some(pid) != TurnId(s))
            && (r == Err(YouPassedThisTrick) <==> turn && pid in s.passed)
            && (r == Err(CardNotInHand) <==> open && |chosen| != |ids|)
            && (forall reason :: ComboReason(reason) ==> (r == Err(reason) <==> held && Classify(chosen) == Err(reason)))
            && (r == Err(CannotBeatTable) <==>
                  held && Classify(chosen).Ok? && !CanBeat(s.table.combo, Classify(chosen).value))
            && (r.Ok? <==> held && Classify(chosen).Ok? && CanBeat(s.table.combo, Classify(chosen).value))
  {
    ChecksRefusals(s, pid, ids);
  }

  /** The refusals of `PlayChecks`, which `Play` passes on unchanged. */
  lemma ChecksRefusals(s: RoomState, pid: PlayerId, ids: seq<Card>)
    ensures var r := PlayChecks(s, pid, ids);
            var ready := s.phase == Playing && s.started;
            var turn := ready && Some(pid) == TurnId(s);
            var open := turn && pid !in s.passed;
            var chosen := Select(HandOf(s.hands, pid), ids);
            var held := open && |chosen| == |ids|;
            && (r == Err(NotPlaying) <==> !ready)
            && (r == Err(NotYourTurn) <==> ready && Some(pid) != TurnId(s))
            && (r == Err(YouPassedThisTrick) <==> turn && pid in s.passed)
            && (r == Err(CardNotInHand) <==> open && |chosen| != |ids|)
            && (forall reason :: ComboReason(reason) ==> (r == Err(reason) <==> held && Classify(chosen) == Err(reason)))
            && (r == Err(CannotBeatTable) <==>
                  held && Classify(chosen).Ok? && !CanBeat(s.table.combo, Classify(chosen).value))
            && (r.Ok? <==> held && Classify(chosen).Ok? && CanBeat(s.table.combo, Classify(chosen).value))
  {
  }

  /** `play` after its checks, when the Sâm declarer is not caught. */
  lemma PlayNormally(s: RoomState, pid: PlayerId, ids: seq<Card>)
    requires PlayChecks(s, pid, ids).Ok? && !Catches(s, pid)
    ensures var m := PlayChecks(s, pid, ids).value;
            var p := Penalties(s, pid, m);
            Play(s, pid, ids) == PlayCards(p.0, pid, ids, m, p.1)
  {
  }

  /** An accepted play names duplicate-free cards the player holds and puts
      exactly those cards on the table, in the player's name, as a classified
      combination that beats the previous one. */
  lemma PlayTable(s: RoomState, pid: PlayerId, ids: seq<Card>)
    requires Distinct(HandOf(s.hands, pid))
    requires Play(s, pid, ids).result.Ok?
    ensures var r := Play(s, pid, ids).room;
            && Distinct(ids) && (forall c :: c in ids ==> c in HandOf(s.hands, pid))
            && r.table.holder == Some(pid)
            && (set c | c in r.table.cards) == (set c | c in ids)
            && r.table.combo.Some? && Classify(r.table.cards) == Ok(r.table.combo.value)
            && CanBeat(s.table.combo, r.table.combo.value)
  {
    SelectAccepted(HandOf(s.hands, pid), ids);
  }

  /** Beating the Sâm declarer's cards ends the round at once with every hand
      untouched and the declaration failed. */
  lemma PlayCatchesSam(s: RoomState, pid: PlayerId, ids: seq<Card>)
    requires Play(s, pid, ids).result.Ok? && Catches(s, pid)
    ensures var st := Play(s, pid, ids);
            && st.result.value == SamCaught(s.sam.declaredBy.value, pid, st.result.value.events)
            && st.room.hands == s.hands && st.room.phase == RoundEnd && !st.room.started
            && st.room.sam.failed && st.room.sam.penaltyApplied
  {
  }

  /** Otherwise the played cards leave the hand and land on the table, and
      no card is lost or created. */
  lemma PlayMovesCards(s: RoomState, pid: PlayerId, ids: seq<Card>)
    requires Play(s, pid, ids).result.Ok? && !Catches(s, pid)
    ensures var st := Play(s, pid, ids);
            var hand := HandOf(s.hands, pid);
            && st.room.hands == s.hands[pid := Drop(hand, ids)]
            && st.room.playedAny == s.playedAny[pid := true]
            && multiset(Drop(hand, ids)) + multiset(st.room.table.cards) == multiset(hand)
  {
    var hand := HandOf(s.hands, pid);
    var m := PlayChecks(s, pid, ids).value;
    var p := Penalties(s, pid, m);
    PlayNormally(s, pid, ids);
    var st := PlayCards(p.0, pid, ids, m, p.1);
    assert p.0.hands == s.hands && p.0.playedAny == s.playedAny;
    assert st.room.table.cards == Select(hand, ids);
    SelectDropSplit(hand, ids);
  }

  /** The player wins exactly when the play uses up their hand. */
  lemma PlayWins(s: RoomState, pid: PlayerId, ids: seq<Card>)
    requires Play(s, pid, ids).result.Ok? && !Catches(s, pid)
    ensures Play(s, pid, ids).result.value.Won? <==> |ids| == |HandOf(s.hands, pid)|
  {
    var hand := HandOf(s.hands, pid);
    var m := PlayChecks(s, pid, ids).value;
    var p := Penalties(s, pid, m);
    PlayNormally(s, pid, ids);
    assert p.0.hands == s.hands;
    SelectDropSplit(hand, ids);
  }

  /** A play that leaves exactly one card opens the Báo-1 watch on the player,
      naming as the player to watch whoever played last before them. */
  lemma PlayOpensBao1(s: RoomState, pid: PlayerId, ids: seq<Card>)
    requires Distinct(HandOf(s.hands, pid))
    requires Play(s, pid, ids).result.Ok? && !Catches(s, pid)
    requires |HandOf(s.hands, pid)| == |ids| + 1
    ensures Play(s, pid, ids).room.bao1 == Bao1(true, Some(pid), s.lastTurn, None, false, false)
  {
    var hand := HandOf(s.hands, pid);
    var m := PlayChecks(s, pid, ids).value;
    var p := Penalties(s, pid, m);
    PlayNormally(s, pid, ids);
    assert p.0.hands == s.hands && p.0.lastTurn == s.lastTurn;
    SelectDropSplit(hand, ids);
    assert |Drop(hand, ids)| == 1;
  }

  /** The player watched under Báo-1 who leads a single other than their
      highest card is recorded as the offender, unless the play leaves them
      with one card and so opens a new watch on them. */
  lemma PlayRecordsOffender(s: RoomState, pid: PlayerId, c: Card)
    requires Distinct(HandOf(s.hands, pid))
    requires Play(s, pid, [c]).result.Ok? && !Catches(s, pid)
    requires s.bao1.active && s.bao1.pid != Some(pid) && s.bao1.prevPid == Some(pid)
    requires Some(c) != HighestCard(HandOf(s.hands, pid))
    requires |HandOf(s.hands, pid)| != 2
    ensures var r := Play(s, pid, [c]).room;
            r.bao1.violated && r.bao1.offender == Some(pid) && r.bao1.pid == s.bao1.pid
  {
    var hand := HandOf(s.hands, pid);
    var m := PlayChecks(s, pid, [c]).value;
    var p := Penalties(s, pid, m);
    PlayNormally(s, pid, [c]);
    OneCardMove(s, pid, c);
    assert p.0.bao1 == s.bao1.(violated := true, offender := Some(pid)) && p.0.hands == s.hands by {
      assert m.chosen[0] == c;
    }
    assert |Drop(hand, [c])| != 1 by {
      SelectDropSplit(hand, [c]);
    }
    CardsKeepOffender(p.0, pid, [c], m, p.1);
  }

  /** An accepted one-card play is the single of that card. */
  lemma OneCardMove(s: RoomState, pid: PlayerId, c: Card)
    requires Distinct(HandOf(s.hands, pid)) && PlayChecks(s, pid, [c]).Ok?
    ensures PlayChecks(s, pid, [c]).value.chosen == [c]
    ensures PlayChecks(s, pid, [c]).value.combo.kind == Single
  {
    var m := PlayChecks(s, pid, [c]).value;
    SelectAccepted(HandOf(s.hands, pid), [c]);
    assert m.chosen[0] in set x | x in [c];
    ClassifyOne([c]);
  }

  /** Laying down cards keeps a recorded offender unless it opens a new watch. */
  lemma CardsKeepOffender(s: RoomState, pid: PlayerId, ids: seq<Card>, m: Move, events: seq<Event>)
    requires |Drop(HandOf(s.hands, pid), ids)| != 1
    ensures var b := PlayCards(s, pid, ids, m, events).room.bao1;
            b.violated == s.bao1.violated && b.offender == s.bao1.offender && b.pid == s.bao1.pid
  {
  }

  /** A Báo-1 player who wins after the watched player offended triggers the
      override that makes the offender pay the whole pot. */
  lemma PlayTriggersBao1(s: RoomState, pid: PlayerId, ids: seq<Card>)
    requires Distinct(HandOf(s.hands, pid))
    requires Play(s, pid, ids).result.Ok? && !Catches(s, pid)
    requires |ids| == |HandOf(s.hands, pid)|
    requires s.bao1.active && s.bao1.pid == Some(pid) && s.bao1.violated && s.bao1.offender.Some?
    ensures var r := Play(s, pid, ids).room;
            r.bao1 == s.bao1.(triggered := true) && r.lastWinner == Some(pid) && r.phase == RoundEnd
  {
    var hand := HandOf(s.hands, pid);
    var m := PlayChecks(s, pid, ids).value;
    var p := Penalties(s, pid, m);
    PlayNormally(s, pid, ids);
    assert p.0.hands == s.hands && p.0.bao1 == s.bao1;
    SelectDropSplit(hand, ids);
    assert |Drop(hand, ids)| == 0;
  }

  // ---------------------------------------------------------------------
  // Every command keeps the room well formed and conserves points.

  lemma NewRoomValid(maxPlayers: nat)
    requires maxPlayers <= MaxSeats
    ensures Valid(NewRoom(maxPlayers)) && Total(NewRoom(maxPlayers).points) == 0
  {
  }

  lemma AddPlayerValid(s: RoomState, pid: PlayerId)
    requires Valid(s)
    ensures Valid(AddPlayer(s, pid).room)
    ensures Total(AddPlayer(s, pid).room.points) == Total(s.points)
  {
    var r := AddPlayer(s, pid).room;
    if AddPlayer(s, pid).result == Ok(Joined) {
      assert pid !in s.hands && pid !in s.playedAny;
      assert HandsOk(r.hands) by {
        assert r.hands == s.hands[pid := []];
        HandsShrink(s.hands, r.hands);
      }
      assert Distinct(r.players) by {
        assert Distinct(s.players + [pid]);
      }
      assert forall p :: p in r.hands <==> p in r.players;
      assert forall p :: p in r.playedAny <==> p in r.players;
      ValidPointwise(r);
      if pid !in s.points {
        assert r.points == Credit(s.points, pid, 0);
        TotalCredit(s.points, pid, 0);
      }
    }
  }

  lemma RemovePlayerValid(s: RoomState, pid: PlayerId)
    requires Valid(s)
    ensures Valid(RemovePlayer(s, pid))
    ensures Total(RemovePlayer(s, pid).points) == Total(s.points)
  {
    UnseatValid(s, pid);
    var s1 := Unseat(s, pid);
    if |s1.players| < 2 {
      NewRoundValid(s1, true);
    }
  }

  lemma UnseatValid(s: RoomState, pid: PlayerId)
    requires Valid(s)
    ensures Valid(Unseat(s, pid))
  {
    var r := Unseat(s, pid);
    assert |r.players| <= r.maxPlayers <= MaxSeats && Distinct(r.players) by {
      WithoutDistinct(s.players, pid);
    }
    assert HandsOk(r.hands) by {
      HandsShrink(s.hands, r.hands);
    }
    assert forall p :: p in r.hands <==> p in r.players by {
      WithoutDistinct(s.players, pid);
    }
    assert forall p :: p in r.playedAny <==> p in r.players by {
      WithoutDistinct(s.players, pid);
    }
    assert forall p :: p in r.players ==> p in r.points by {
      WithoutDistinct(s.players, pid);
    }
    ValidPointwise(r);
  }

  /** A new round empties the seated players' hands and keeps the room well formed. */
  lemma NewRoundValid(s: RoomState, force: bool)
    requires Valid(s)
    ensures Valid(NewRound(s, force))
  {
    var r := NewRound(s, force);
    HandsShrink(s.hands, r.hands);
    ValidPointwise(r);
  }

  lemma DeclareSamValid(s: RoomState, pid: PlayerId, flag: bool)
    requires Valid(s)
    ensures Valid(DeclareSamCmd(s, pid, flag).room)
    ensures DeclareSamCmd(s, pid, flag).room.points == s.points
  {
  }

  lemma TickValid(s: RoomState, now: int)
    requires Valid(s)
    ensures Valid(TickDeclarePhase(s, now).1)
    ensures TickDeclarePhase(s, now).1.points == s.points
  {
  }

  lemma PassValid(s: RoomState, pid: PlayerId)
    requires Valid(s)
    ensures Valid(Pass(s, pid).room)
    ensures Pass(s, pid).room.points == s.points
  {
  }

  /** The Báo-1 watch and the cut of a 2 keep the room well formed. */
  lemma PenaltiesValid(s: RoomState, pid: PlayerId, m: Move)
    requires Valid(s)
    requires m.combo.kind == Single ==> |m.chosen| == 1
    ensures Valid(Penalties(s, pid, m).0)
  {
  }

  lemma CatchSamValid(s: RoomState, pid: PlayerId, m: Move, events: seq<Event>)
    requires Valid(s) && s.sam.declaredBy.Some?
    ensures Valid(CatchSam(s, pid, m, events).room)
  {
    var s0 := s.(sam := s.sam.(failed := true));
    assert ApplySamPenalty(s0).0.points.Keys >= s.points.Keys;
  }

  lemma PlayCardsValid(s: RoomState, pid: PlayerId, ids: seq<Card>, m: Move, events: seq<Event>)
    requires Valid(s) && pid in s.players
    ensures Valid(PlayCards(s, pid, ids, m, events).room)
  {
    var left := Drop(HandOf(s.hands, pid), ids);
    LayDownValid(s, pid, ids, m);
    var s4 := LayDown(s, pid, left, m);
  }

  lemma LayDownValid(s: RoomState, pid: PlayerId, ids: seq<Card>, m: Move)
    requires Valid(s) && pid in s.players
    ensures Valid(LayDown(s, pid, Drop(HandOf(s.hands, pid), ids), m))
  {
    var r := LayDown(s, pid, Drop(HandOf(s.hands, pid), ids), m);
    assert HandsOk(r.hands) by {
      SelectDropDistinct(HandOf(s.hands, pid), ids);
      HandsShrink(s.hands, r.hands);
    }
    assert r.hands.Keys == s.hands.Keys && r.playedAny.Keys == s.playedAny.Keys;
    ValidParts(s, r);
  }

  lemma PlayValid(s: RoomState, pid: PlayerId, ids: seq<Card>)
    requires Valid(s)
    ensures Valid(Play(s, pid, ids).room)
    ensures Total(Play(s, pid, ids).room.points) == Total(s.points)
  {
    if PlayChecks(s, pid, ids).Ok? {
      var m := PlayChecks(s, pid, ids).value;
      var p := Penalties(s, pid, m);
      assert pid in s.players;
      PenaltiesValid(s, pid, m);
      if Catches(s, pid) {
        CatchSamValid(p.0, pid, m, p.1);
      } else {
        PlayNormally(s, pid, ids);
        PlayCardsValid(p.0, pid, ids, m, p.1);
      }
    }
  }

  lemma FinishValid(s: RoomState)
    requires Valid(s)
    ensures Valid(FinishAndScore(s).1)
    ensures Total(FinishAndScore(s).1.points) == Total(s.points)
  {
    FinishConserves(s);
  }

  // ---------------------------------------------------------------------
  // Dealing.

  /** Seat `k` is dealt every `n`-th card popped off the deck, starting
      with the `k`-th. */
  lemma DealtHand(hands: map<PlayerId, seq<Card>>, players: seq<PlayerId>, deck: seq<Card>, k: nat)
    requires Distinct(players) && |players| * HandSize <= |deck| && k < |players|
    ensures HandOf(DealHands(hands, players, deck), players[k]) ==
            Column(Popped(deck, HandSize * |players|), |players|, k, HandSize)
  {
    var cards := Popped(deck, HandSize * |players|);
    DealAt(EmptyHands(hands, players), players, cards, HandSize, k);
  }

  /** One seat's dealt hand: ten distinct cards of the deck. */
  lemma DealtSeat(hands: map<PlayerId, seq<Card>>, players: seq<PlayerId>, deck: seq<Card>, k: nat)
    requires Distinct(players) && |players| * HandSize <= |deck| && k < |players|
    requires Distinct(Popped(deck, HandSize * |players|))
    ensures var h := HandOf(DealHands(hands, players, deck), players[k]);
            Distinct(h) && |h| == HandSize && forall c :: c in h ==> c in Popped(deck, HandSize * |players|)
  {
    var cards := Popped(deck, HandSize * |players|);
    DealtHand(hands, players, deck, k);
    ColumnsDisjoint(cards, |players|, k, k, HandSize);
    ColumnWithin(cards, |players|, k, HandSize);
  }

  /** Two seats are dealt no common card. */
  lemma DealtSeatsDisjoint(hands: map<PlayerId, seq<Card>>, players: seq<PlayerId>, deck: seq<Card>, k1: nat, k2: nat)
    requires Distinct(players) && |players| * HandSize <= |deck| && k1 < |players| && k2 < |players| && k1 != k2
    requires Distinct(Popped(deck, HandSize * |players|))
    ensures var d := DealHands(hands, players, deck);
            Disjoint(HandOf(d, players[k1]), HandOf(d, players[k2]))
  {
    var cards := Popped(deck, HandSize * |players|);
    DealtHand(hands, players, deck, k1);
    DealtHand(hands, players, deck, k2);
    ColumnsDisjoint(cards, |players|, k1, k2, HandSize);
  }

  lemma DealtKeys(hands: map<PlayerId, seq<Card>>, players: seq<PlayerId>, deck: seq<Card>)
    requires |players| * HandSize <= |deck|
    requires hands.Keys == set p | p in players
    ensures DealHands(hands, players, deck).Keys == set p | p in players
  {
    DealKeys(EmptyHands(hands, players), players, Popped(deck, HandSize * |players|), HandSize);
  }

  /** Dealing from a shuffled deck gives each seated player ten cards of the
      deck and no card to two players. */
  lemma DealtHandsOk(hands: map<PlayerId, seq<Card>>, players: seq<PlayerId>, deck: seq<Card>)
    requires IsShuffled(deck) && Distinct(players) && |players| * HandSize <= |deck|
    requires hands.Keys == set p | p in players
    ensures var dealt := DealHands(hands, players, deck);
            && dealt.Keys == (set p | p in players)
            && HandsOk(dealt)
            && (forall p :: p in dealt ==> |dealt[p]| == HandSize)
            && (forall p, c :: p in dealt && c in dealt[p] ==> c in deck)
  {
    var n := |players|;
    var dealt := DealHands(hands, players, deck);
    ShuffledDeck(deck);
    PoppedDistinct(deck, HandSize * n);
    DealtKeys(hands, players, deck);
    forall p | p in dealt
      ensures Distinct(dealt[p]) && |dealt[p]| == HandSize && forall c :: c in dealt[p] ==> c in deck
    {
      DealtSeat(hands, players, deck, IndexOf(players, p));
    }
    forall p, q | p in dealt && q in dealt && p != q
      ensures Disjoint(dealt[p], dealt[q])
    {
      DealtSeatsDisjoint(hands, players, deck, IndexOf(players, p), IndexOf(players, q));
    }
  }

  lemma StartGameHands(s: RoomState, deck: seq<Card>, now: int)
    requires Valid(s) && IsShuffled(deck) && |s.players| * HandSize <= |deck|
    requires StartGame(s, deck, now).result.Ok?
    ensures var r := StartGame(s, deck, now).room;
            r.hands.Keys == (set p | p in s.players) && HandsOk(r.hands)
  {
    var st := StartGame(s, deck, now);
    var dealt := DealHands(s.hands, s.players, deck);
    DealtHandsOk(s.hands, s.players, deck);
    if st.result.value.WonAtDeal? {
      EmptyOneHand(dealt, st.result.value.winner);
    }
  }

  lemma StartGameValid(s: RoomState, deck: seq<Card>, now: int)
    requires Valid(s) && IsShuffled(deck) && |s.players| * HandSize <= |deck|
    ensures Valid(StartGame(s, deck, now).room)
    ensures StartGame(s, deck, now).room.points == s.points
  {
    if StartGame(s, deck, now).result.Ok? {
      StartedValid(s, deck, now);
    }
  }

  lemma StartedValid(s: RoomState, deck: seq<Card>, now: int)
    requires Valid(s) && IsShuffled(deck) && |s.players| * HandSize <= |deck|
    requires StartGame(s, deck, now).result.Ok?
    ensures Valid(StartGame(s, deck, now).room)
  {
    var r := StartGame(s, deck, now).room;
    assert r.hands.Keys == (set p | p in s.players) && HandsOk(r.hands) by {
      StartGameHands(s, deck, now);
    }
    assert r.playedAny.Keys == set p | p in s.players by {
      var roster := set p | p in s.players;
      assert r.playedAny == ClearPlayed(s.playedAny, s.players);
      assert s.playedAny.Keys == roster;
      assert r.playedAny.Keys == s.playedAny.Keys + roster;
      UnionSame(s.playedAny.Keys, roster);
    }
    ValidParts(s, r);
  }

  lemma UnionSame<T>(a: set<T>, b: set<T>)
    requires a == b
    ensures a + b == b
  {
  }

  /** `Valid` with its key-set equalities stated point by point. */
  lemma ValidPointwise(r: RoomState)
    requires |r.players| <= r.maxPlayers <= MaxSeats && Distinct(r.players)
    requires forall p :: p in r.hands <==> p in r.players
    requires forall p :: p in r.playedAny <==> p in r.players
    requires forall p :: p in r.players ==> p in r.points
    requires HandsOk(r.hands)
    requires r.bao1.offender.None? || r.bao1.offender != r.bao1.pid
    requires r.turnIndex < |r.players| || r.turnIndex == 0
    ensures Valid(r)
  {
    assert r.hands.Keys == set p | p in r.players;
    assert r.playedAny.Keys == set p | p in r.players;
  }

  /** A room with the roster, capacity and points of a well-formed room, and
      well-formed hands, flags, Báo-1 record and pointer, is well formed. */
  lemma ValidParts(s: RoomState, r: RoomState)
    requires Valid(s)
    requires r.players == s.players && r.maxPlayers == s.maxPlayers && r.points == s.points
    requires r.hands.Keys == (set p | p in s.players) && HandsOk(r.hands)
    requires r.playedAny.Keys == (set p | p in s.players)
    requires r.bao1.offender.None? || r.bao1.offender != r.bao1.pid
    requires r.turnIndex < |r.players| || r.turnIndex == 0
    ensures Valid(r)
  {
  }

  /** With no white win dealt, every seated player holds the ten cards of
      their seat and the declaration window opens. */
  lemma StartGameDeals(s: RoomState, deck: seq<Card>, now: int)
    requires Distinct(s.players) && |s.players| * HandSize <= |deck|
    requires !s.started && |s.players| >= 2
    requires forall p :: p in s.players ==> !WhiteWin(HandOf(DealHands(s.hands, s.players, deck), p))
    ensures var st := StartGame(s, deck, now);
            && st.result == Ok(Started)
            && st.room.phase == DeclareSam
            && forall k :: 0 <= k < |s.players| ==>
                 HandOf(st.room.hands, s.players[k]) == Column(Popped(deck, HandSize * |s.players|), |s.players|, k, HandSize)
  {
    var st := StartGame(s, deck, now);
    assert st.room.hands == DealHands(s.hands, s.players, deck);
    forall k | 0 <= k < |s.players| {
      DealtHand(s.hands, s.players, deck, k);
    }
  }

  /** Otherwise the first seated player dealt a white win wins the round at
      once: their hand is emptied and the round ends. */
  lemma StartGameWhiteWin(s: RoomState, deck: seq<Card>, now: int, w: nat)
    requires Distinct(s.players) && |s.players| * HandSize <= |deck|
    requires !s.started && |s.players| >= 2
    requires w < |s.players| && WhiteWin(HandOf(DealHands(s.hands, s.players, deck), s.players[w]))
    requires forall j :: 0 <= j < w ==> !WhiteWin(HandOf(DealHands(s.hands, s.players, deck), s.players[j]))
    ensures var st := StartGame(s, deck, now);
            && st.result == Ok(WonAtDeal(s.players[w]))
            && HandOf(st.room.hands, s.players[w]) == []
            && st.room.phase == RoundEnd && !st.room.started
            && st.room.lastWinner == Some(s.players[w])
  {
    var dealt := DealHands(s.hands, s.players, deck);
    var i := FindFirst(s.players, p => WhiteWin(HandOf(dealt, p)));
    assert i == w;
  }

  // ---------------------------------------------------------------------
  // Whole games.

  /** A command a client can send, with the clock reading and the shuffled
      deck supplied from outside. */
  datatype Command =
    | Join(pid: PlayerId)
    | Leave(pid: PlayerId)
    | Begin(deck: seq<Card>, now: int)
    | Answer(pid: PlayerId, flag: bool)
    | Clock(now: int)
    | Skip(pid: PlayerId)
    | Lay(pid: PlayerId, ids: seq<Card>)
    | Settle
    | Reset

  ghost predicate DeckShuffled(c: Command) {
    c.Begin? ==> IsShuffled(c.deck)
  }

  function Apply(s: RoomState, c: Command): RoomState
    requires Valid(s) && DeckShuffled(c)
  {
    match c
    case Join(pid) => AddPlayer(s, pid).room
    case Leave(pid) => RemovePlayer(s, pid)
    case Begin(deck, now) =>
      ShuffledDeck(deck);
      StartGame(s, deck, now).room
    case Answer(pid, flag) => DeclareSamCmd(s, pid, flag).room
    case Clock(now) => TickDeclarePhase(s, now).1
    case Skip(pid) => Pass(s, pid).room
    case Lay(pid, ids) => Play(s, pid, ids).room
    case Settle => FinishAndScore(s).1
    case Reset => NewRound(s, false)
  }

  /** One command keeps the room well formed and the sum of all points. */
  lemma ApplyValid(s: RoomState, c: Command)
    requires Valid(s) && DeckShuffled(c)
    ensures Valid(Apply(s, c)) && Total(Apply(s, c).points) == Total(s.points)
  {
    match c
    case Join(pid) => AddPlayerValid(s, pid);
    case Leave(pid) => RemovePlayerValid(s, pid);
    case Begin(deck, now) => ShuffledDeck(deck); StartGameValid(s, deck, now);
    case Answer(pid, flag) => DeclareSamValid(s, pid, flag);
    case Clock(now) => TickValid(s, now);
    case Skip(pid) => PassValid(s, pid);
    case Lay(pid, ids) => PlayValid(s, pid, ids);
    case Settle => FinishValid(s);
    case Reset => NewRoundValid(s, false);
  }

  /** The room after a sequence of commands. */
  function Run(s: RoomState, cmds: seq<Command>): (r: RoomState)
    requires Valid(s) && forall i :: 0 <= i < |cmds| ==> DeckShuffled(cmds[i])
    ensures Valid(r)
    decreases |cmds|
  {
    if |cmds| == 0 then s
    else
      ApplyValid(s, cmds[0]);
      Run(Apply(s, cmds[0]), cmds[1..])
  }

  /** Points only ever move between players: the sum of all balances is the
      same after any sequence of commands. */
  lemma {:induction false} RunConserves(s: RoomState, cmds: seq<Command>)
    requires Valid(s) && forall i :: 0 <= i < |cmds| ==> DeckShuffled(cmds[i])
    ensures Total(Run(s, cmds).points) == Total(s.points)
    decreases |cmds|
  {
    if |cmds| > 0 {
      ApplyValid(s, cmds[0]);
      RunConserves(Apply(s, cmds[0]), cmds[1..]);
    }
  }

  /** So in every room the balances of everybody who ever sat down sum to zero. */
  lemma ZeroSumGame(maxPlayers: nat, cmds: seq<Command>)
    requires maxPlayers <= MaxSeats
    requires forall i :: 0 <= i < |cmds| ==> DeckShuffled(cmds[i])
    ensures Total(Run(NewRoom(maxPlayers), cmds).points) == 0
  {
    NewRoomValid(maxPlayers);
    RunConserves(NewRoom(maxPlayers), cmds);
  }
}

=== FILE: rules.dfy ===
/** The combination rules: classifying a set of cards into a playable
    combination, and deciding whether a combination tops the one on the table. */
module Rules {
  import opened Base
  import opened Cards

  datatype ComboType = Single | Pair | Triple | Quad | Straight

  /** A classified combination: its type, representative rank (the top card
      for a straight) and number of cards. */
  datatype Combo = Combo(kind: ComboType, rank: Rank, len: nat)

  /** `uniq.length <= 1`: at most one distinct rank occurs. */
  predicate SingleRank(rs: seq<Rank>) {
    forall x, y :: x in rs && y in rs ==> x == y
  }

  /** The K-A-2 wrap-around: all three of K, A and 2 are present. */
  predicate HasKa2(rs: seq<Rank>) {
    King in rs && Ace in rs && Two in rs
  }

  /** The straight loops of the classifier: walk left to right and stop at the
      first key that is not exactly one above its predecessor. */
  function StepsByOne(ord: Order, rs: seq<Rank>): bool {
    |rs| <= 1 || (Key(ord, rs[1]) == Key(ord, rs[0]) + 1 && StepsByOne(ord, rs[1..]))
  }

  /** The classifier's last straight test (`ranks.every(...)` on `RANK_VALUE`). */
  predicate EveryStepByOne(ord: Order, rs: seq<Rank>) {
    forall i :: 1 <= i < |rs| ==> Key(ord, rs[i]) == Key(ord, rs[i - 1]) + 1
  }

  /** The `every` test is the loop test written differently. Applied to the
      same sorted ranks and the same order, the classifier's third straight
      check therefore repeats its first one and can never accept a hand the
      first one rejected, so the model leaves that branch out. */
  lemma {:induction false} StepsByOneIsEvery(ord: Order, rs: seq<Rank>)
    ensures StepsByOne(ord, rs) <==> EveryStepByOne(ord, rs)
  {
    if |rs| > 1 {
      StepsByOneIsEvery(ord, rs[1..]);
      assert forall i :: 1 <= i < |rs[1..]| ==> rs[1..][i] == rs[i + 1] && rs[1..][i - 1] == rs[i];
      if EveryStepByOne(ord, rs) {
        assert EveryStepByOne(ord, rs[1..]) by {
          forall i | 1 <= i < |rs[1..]|
            ensures Key(ord, rs[1..][i]) == Key(ord, rs[1..][i - 1]) + 1
          {
            assert rs[1..][i] == rs[i + 1] && rs[1..][i - 1] == rs[i];
          }
        }
      }
      if StepsByOne(ord, rs) {
        forall i | 1 <= i < |rs| ensures Key(ord, rs[i]) == Key(ord, rs[i - 1]) + 1 {
          if i > 1 {
            assert rs[1..][i - 1] == rs[i] && rs[1..][i - 2] == rs[i - 1];
          }
        }
      }
    }
  }

  /** The reasons the classifier can give for refusing a set of cards. */
  predicate ComboReason(reason: Reason) {
    reason in {Empty, InvalidSet, Ka2NotAllowed, InvalidStraight, InvalidCombo}
  }

  /** `classifyCombo`. Ranks are sorted by `RANK_VALUE` first; a straight is
      tried under the primary order and then under the alternate order. */
  function Classify(cards: seq<Card>): (r: Result<Combo>)
    ensures |cards| == 0 <==> r == Err(Empty)
    ensures r.Ok? ==> r.value.len == |cards| && r.value.rank in RanksOf(cards)
    ensures r.Ok? && r.value.kind == Single ==> |cards| == 1
    ensures r.Err? ==> ComboReason(r.reason)
  {
    if |cards| == 0 then Err(Empty)
    else
      var rs := RanksOf(cards);
      SortedMembers(Primary, rs);
      SortedMembers(Alternate, rs);
      ClassifySorted(SortBy(Primary, rs), SortBy(Alternate, rs))
  }

  /** Sorting keeps exactly the same ranks. */
  lemma SortedMembers(ord: Order, rs: seq<Rank>)
    ensures forall x :: x in SortBy(ord, rs) <==> x in rs
  {
    var s := SortBy(ord, rs);
    forall x ensures x in s <==> x in rs {
      assert x in s <==> x in multiset(s);
      assert x in rs <==> x in multiset(rs);
    }
  }

  /** The classifier after sorting: `ranks` sorted by the primary order and
      `alt` the same ranks sorted by the alternate order. */
  function ClassifySorted(ranks: seq<Rank>, alt: seq<Rank>): (r: Result<Combo>)
    requires |ranks| >= 1 && |alt| == |ranks|
    ensures r != Err(Empty)
    ensures r.Ok? ==> r.value.len == |ranks| && (r.value.rank in ranks || r.value.rank in alt)
    ensures r.Ok? && r.value.kind == Straight ==> |ranks| >= 3
    ensures r.Ok? && r.value.kind == Single ==> |ranks| == 1
    ensures r.Err? ==> ComboReason(r.reason)
  {
    var n := |ranks|;
    if n == 1 then Ok(Combo(Single, ranks[0], 1))
    else if SingleRank(ranks) then
      if n == 2 then Ok(Combo(Pair, ranks[0], 2))
      else if n == 3 then Ok(Combo(Triple, ranks[0], 3))
      else if n == 4 then Ok(Combo(Quad, ranks[0], 4))
      else Err(InvalidSet)
    else if n >= 3 then ClassifyRun(ranks, alt)
    else Err(InvalidCombo)
  }

  /** The straight branch, for three or more cards of several ranks. */
  function ClassifyRun(ranks: seq<Rank>, alt: seq<Rank>): (r: Result<Combo>)
    requires |ranks| >= 3 && |alt| == |ranks|
    ensures r.Ok? ==> r.value.kind == Straight && r.value.len == |ranks|
    ensures r.Ok? ==> r.value.rank in ranks || r.value.rank in alt
    ensures r.Err? ==> r.reason in {Ka2NotAllowed, InvalidStraight}
  {
    var n := |ranks|;
    if HasKa2(ranks) then Err(Ka2NotAllowed)
    else if StepsByOne(Primary, ranks) then Ok(Combo(Straight, ranks[n - 1], n))
    else if StepsByOne(Alternate, alt) then Ok(Combo(Straight, alt[n - 1], n))
    else Err(InvalidStraight)
  }

  /** All cards share one rank (`uniq.length === 1`). */
  ghost predicate SameRank(cards: seq<Card>) {
    forall c, d :: c in cards && d in cards ==> c.rank == d.rank
  }

  lemma SameRankOfRanks(cards: seq<Card>)
    ensures SameRank(cards) <==> SingleRank(SortBy(Primary, RanksOf(cards)))
  {
    var rs := RanksOf(cards);
    SortedMembers(Primary, rs);
    if SameRank(cards) {
      forall x, y | x in rs && y in rs ensures x == y {
        var i :| 0 <= i < |rs| && rs[i] == x;
        var j :| 0 <= j < |rs| && rs[j] == y;
        assert cards[i] in cards && cards[j] in cards;
      }
    }
    if SingleRank(rs) {
      forall c, d | c in cards && d in cards ensures c.rank == d.rank {
        var i :| 0 <= i < |cards| && cards[i] == c;
        var j :| 0 <= j < |cards| && cards[j] == d;
        assert rs[i] in rs && rs[j] in rs;
      }
    }
  }

  /** One card is a SINGLE of that card's rank. */
  lemma ClassifyOne(cards: seq<Card>)
    requires |cards| == 1
    ensures Classify(cards) == Ok(Combo(Single, cards[0].rank, 1))
  {
    var s := SortBy(Primary, RanksOf(cards));
    assert s[0] in multiset(RanksOf(cards));
  }

  /** Every non-straight combination consists of cards of its rank, and
      SINGLE is exactly the one-card case. */
  lemma ClassifyNonStraight(cards: seq<Card>)
    requires Classify(cards).Ok? && Classify(cards).value.kind != Straight
    ensures SameRank(cards)
    ensures forall c :: c in cards ==> c.rank == Classify(cards).value.rank
    ensures Classify(cards).value.kind == Single <==> |cards| == 1
  {
    SameRankOfRanks(cards);
    var rs := RanksOf(cards);
    SortedMembers(Primary, rs);
    forall c | c in cards ensures c.rank in rs {
      var i :| 0 <= i < |cards| && cards[i] == c;
    }
  }

  /** Cards all of one rank form a PAIR, TRIPLE or QUAD for 2, 3 or 4 cards,
      and any other count of one rank is refused. */
  lemma ClassifySameRank(cards: seq<Card>)
    requires |cards| >= 2 && SameRank(cards)
    ensures |cards| == 2 ==> Classify(cards) == Ok(Combo(Pair, cards[0].rank, 2))
    ensures |cards| == 3 ==> Classify(cards) == Ok(Combo(Triple, cards[0].rank, 3))
    ensures |cards| == 4 ==> Classify(cards) == Ok(Combo(Quad, cards[0].rank, 4))
    ensures |cards| > 4 ==> Classify(cards) == Err(InvalidSet)
  {
    SameRankOfRanks(cards);
    var rs := RanksOf(cards);
    var p := SortBy(Primary, rs);
    var a := SortBy(Alternate, rs);
    SortedMembers(Primary, rs);
    SortedMembers(Alternate, rs);
    assert Classify(cards) == ClassifySorted(p, a);
    assert p[0] == cards[0].rank by {
      assert p[0] in rs;
      var i :| 0 <= i < |rs| && rs[i] == p[0];
      assert cards[i] in cards && cards[0] in cards;
    }
  }

  /** Two cards of different ranks are no combination at all. */
  lemma ClassifyTwoDifferent(cards: seq<Card>)
    requires |cards| == 2 && cards[0].rank != cards[1].rank
    ensures Classify(cards) == Err(InvalidCombo)
  {
    SameRankOfRanks(cards);
  }

  /** Three or more cards of several ranks including K, A and 2 are refused
      before any straight test. */
  lemma ClassifyKa2(cards: seq<Card>)
    requires |cards| >= 3 && !SameRank(cards) && HasKa2(RanksOf(cards))
    ensures Classify(cards) == Err(Ka2NotAllowed)
  {
    SameRankOfRanks(cards);
    SortedMembers(Primary, RanksOf(cards));
  }

  // ---------------------------------------------------------------------
  // Straights, characterised independently of any sorting.

  /** The ranks are pairwise different and their keys under `ord` lie within
      a window of `|rs|` consecutive values, i.e. they are consecutive. */
  ghost predicate IsRun(ord: Order, rs: seq<Rank>) {
    && Distinct(rs)
    && forall x, y :: x in rs && y in rs ==> Key(ord, x) < Key(ord, y) + |rs|
  }

  /** `t` is the highest of the ranks under `ord`. */
  ghost predicate IsTop(ord: Order, rs: seq<Rank>, t: Rank) {
    t in rs && forall x :: x in rs ==> Key(ord, x) <= Key(ord, t)
  }

  lemma RunPermutation(ord: Order, a: seq<Rank>, b: seq<Rank>, t: Rank)
    requires multiset(a) == multiset(b)
    ensures IsRun(ord, a) == IsRun(ord, b)
    ensures IsTop(ord, a, t) == IsTop(ord, b, t)
  {
    assert |a| == |multiset(a)| == |multiset(b)| == |b|;
    assert forall x :: x in a <==> x in b by {
      forall x ensures x in a <==> x in b {
        assert x in a <==> x in multiset(a);
        assert x in b <==> x in multiset(b);
      }
    }
    if Distinct(a) { DistinctPermutation(a, b); }
    if Distinct(b) { DistinctPermutation(b, a); }
  }

  /** With keys each one above the previous, the i-th key is the first plus i. */
  lemma {:induction false} StepsOffset(ord: Order, s: seq<Rank>, i: nat)
    requires EveryStepByOne(ord, s) && i < |s|
    ensures Key(ord, s[i]) == Key(ord, s[0]) + i
  {
    if i > 0 {
      StepsOffset(ord, s, i - 1);
    }
  }

  /** Strictly increasing keys grow by at least one per position. */
  lemma {:induction false} GapAtLeast(ord: Order, s: seq<Rank>, i: nat, j: nat)
    requires forall k :: 1 <= k < |s| ==> Key(ord, s[k - 1]) < Key(ord, s[k])
    requires i <= j < |s|
    ensures Key(ord, s[j]) - Key(ord, s[i]) >= j - i
    decreases j - i
  {
    if i < j {
      GapAtLeast(ord, s, i, j - 1);
    }
  }

  lemma StepsGiveRun(ord: Order, s: seq<Rank>)
    requires EveryStepByOne(ord, s)
    ensures IsRun(ord, s)
  {
    forall i | 0 <= i < |s| ensures Key(ord, s[i]) == Key(ord, s[0]) + i {
      StepsOffset(ord, s, i);
    }
    forall x, y | x in s && y in s ensures Key(ord, x) < Key(ord, y) + |s| {
      var i :| 0 <= i < |s| && s[i] == x;
      var j :| 0 <= j < |s| && s[j] == y;
    }
  }

  lemma SortedRunSteps(ord: Order, s: seq<Rank>)
    requires SortedBy(ord, s) && IsRun(ord, s)
    ensures EveryStepByOne(ord, s)
  {
    var n := |s|;
    forall k | 1 <= k < n ensures Key(ord, s[k - 1]) < Key(ord, s[k]) {
      if Key(ord, s[k - 1]) == Key(ord, s[k]) {
        KeyInjective(ord, s[k - 1], s[k]);
      }
    }
    forall i | 1 <= i < n ensures Key(ord, s[i]) == Key(ord, s[i - 1]) + 1 {
      GapAtLeast(ord, s, i, n - 1);
      GapAtLeast(ord, s, 0, i - 1);
      assert s[n - 1] in s && s[0] in s;
    }
  }

  /** On sorted ranks the classifier's loop accepts exactly the runs. */
  lemma SortedRunIffSteps(ord: Order, s: seq<Rank>)
    requires SortedBy(ord, s)
    ensures StepsByOne(ord, s) <==> IsRun(ord, s)
  {
    StepsByOneIsEvery(ord, s);
    if StepsByOne(ord, s) {
      StepsGiveRun(ord, s);
    }
    if IsRun(ord, s) {
      SortedRunSteps(ord, s);
    }
  }

  /** The last of a sorted sequence is its unique top. */
  lemma SortedTop(ord: Order, s: seq<Rank>, t: Rank)
    requires SortedBy(ord, s) && |s| > 0
    ensures IsTop(ord, s, t) <==> t == s[|s| - 1]
  {
    if IsTop(ord, s, t) {
      var i :| 0 <= i < |s| && s[i] == t;
      assert Key(ord, s[i]) <= Key(ord, s[|s| - 1]);
      assert s[|s| - 1] in s;
      KeyInjective(ord, t, s[|s| - 1]);
    }
  }

  /** A run of two or more ranks has more than one rank. */
  lemma RunNotSingleRank(ord: Order, rs: seq<Rank>)
    requires IsRun(ord, rs) && |rs| >= 2
    ensures !SingleRank(rs)
  {
    assert rs[0] in rs && rs[1] in rs;
  }

  /** The straight characterisation on the sorted ranks the classifier sees. */
  lemma ClassifySortedStraight(p: seq<Rank>, a: seq<Rank>, t: Rank)
    requires SortedBy(Primary, p) && SortedBy(Alternate, a)
    requires multiset(p) == multiset(a) && |p| >= 3 && |a| == |p|
    ensures ClassifySorted(p, a) == Ok(Combo(Straight, t, |p|)) <==>
      && !HasKa2(p)
      && (|| (IsRun(Primary, p) && IsTop(Primary, p, t))
          || (!IsRun(Primary, p) && IsRun(Alternate, a) && IsTop(Alternate, a, t)))
  {
    if SingleRank(p) {
      if IsRun(Primary, p) {
        RunNotSingleRank(Primary, p);
      }
      if IsRun(Alternate, a) {
        RunPermutation(Alternate, a, p, t);
        RunNotSingleRank(Alternate, p);
      }
    } else {
      assert ClassifySorted(p, a) == ClassifyRun(p, a);
      ClassifyRunStraight(p, a, t);
    }
  }

  /** The straight branch on sorted ranks: the loops accept exactly the runs. */
  lemma ClassifyRunStraight(p: seq<Rank>, a: seq<Rank>, t: Rank)
    requires SortedBy(Primary, p) && SortedBy(Alternate, a) && |p| >= 3 && |a| == |p|
    ensures ClassifyRun(p, a) == Ok(Combo(Straight, t, |p|)) <==>
      && !HasKa2(p)
      && (|| (IsRun(Primary, p) && IsTop(Primary, p, t))
          || (!IsRun(Primary, p) && IsRun(Alternate, a) && IsTop(Alternate, a, t)))
  {
    var n := |p|;
    SortedRunIffSteps(Primary, p);
    SortedTop(Primary, p, t);
    if !HasKa2(p) && !StepsByOne(Primary, p) {
      SortedRunIffSteps(Alternate, a);
      SortedTop(Alternate, a, t);
      assert ClassifyRun(p, a) == if StepsByOne(Alternate, a) then Ok(Combo(Straight, a[n - 1], n)) else Err(InvalidStraight);
    }
  }

  /** The classifier accepts a STRAIGHT topped by `t` exactly when there are
      at least three cards, K, A and 2 do not all occur, and the ranks are
      consecutive under the primary order with top `t`, or — failing that —
      consecutive under the alternate order with top `t`. */
  lemma ClassifyStraight(cards: seq<Card>, t: Rank)
    ensures Classify(cards) == Ok(Combo(Straight, t, |cards|)) <==>
      var rs := RanksOf(cards);
      && |cards| >= 3
      && !HasKa2(rs)
      && (|| (IsRun(Primary, rs) && IsTop(Primary, rs, t))
          || (!IsRun(Primary, rs) && IsRun(Alternate, rs) && IsTop(Alternate, rs, t)))
  {
    var rs := RanksOf(cards);
    if |cards| > 0 {
      var p := SortBy(Primary, rs);
      var a := SortBy(Alternate, rs);
      assert Classify(cards) == ClassifySorted(p, a);
      if |cards| >= 3 {
        RunPermutation(Primary, rs, p, t);
        RunPermutation(Alternate, rs, a, t);
        SortedMembers(Primary, rs);
        assert HasKa2(rs) == HasKa2(p);
        ClassifySortedStraight(p, a, t);
      }
    }
  }

  /** Three or more cards of several ranks, without K-A-2, whose ranks are
      consecutive under neither order (a repeated rank, or a gap as in 3-5-7)
      are refused as an invalid straight. */
  lemma ClassifyNoRun(cards: seq<Card>)
    requires |cards| >= 3 && !SameRank(cards) && !HasKa2(RanksOf(cards))
    requires !IsRun(Primary, RanksOf(cards)) && !IsRun(Alternate, RanksOf(cards))
    ensures Classify(cards) == Err(InvalidStraight)
  {
    var rs := RanksOf(cards);
    var p := SortBy(Primary, rs);
    var a := SortBy(Alternate, rs);
    SameRankOfRanks(cards);
    SortedMembers(Primary, rs);
    assert Classify(cards) == ClassifySorted(p, a);
    assert HasKa2(p) == HasKa2(rs);
    SortedRunIffSteps(Primary, p);
    SortedRunIffSteps(Alternate, a);
    RunPermutation(Primary, p, rs, Three);
    RunPermutation(Alternate, a, rs, Three);
    assert ClassifySorted(p, a) == ClassifyRun(p, a);
  }

  /** Ranks that are no run under the primary order but a run under the
      alternate one form a straight topped by their alternate-order top. */
  lemma AlternateStraight(cards: seq<Card>, t: Rank)
    requires |cards| >= 3 && !HasKa2(RanksOf(cards))
    requires !IsRun(Primary, RanksOf(cards)) && IsRun(Alternate, RanksOf(cards)) && IsTop(Alternate, RanksOf(cards), t)
    ensures Classify(cards) == Ok(Combo(Straight, t, |cards|))
  {
    ClassifyStraight(cards, t);
  }

  /** Three ranks whose keys climb by one form a run topped by the last. */
  lemma RunOfThree(ord: Order, rs: seq<Rank>)
    requires |rs| == 3
    requires Key(ord, rs[1]) == Key(ord, rs[0]) + 1 && Key(ord, rs[2]) == Key(ord, rs[1]) + 1
    ensures IsRun(ord, rs) && IsTop(ord, rs, rs[2])
  {
    assert forall x :: x in rs ==> x == rs[0] || x == rs[1] || x == rs[2];
  }

  /** Q-K-A is a straight topped by A under the primary order. */
  lemma StraightQueenKingAce(cards: seq<Card>)
    requires cards == [Card(Queen, Spades), Card(King, Hearts), Card(Ace, Clubs)]
    ensures Classify(cards) == Ok(Combo(Straight, Ace, 3))
  {
    var rs := RanksOf(cards);
    assert rs[0] == Queen && rs[1] == King && rs[2] == Ace;
    assert !HasKa2(rs) by {
      assert forall x :: x in rs ==> x == rs[0] || x == rs[1] || x == rs[2];
    }
    RunOfThree(Primary, rs);
    ClassifyStraight(cards, Ace);
  }

  /** 2-3-4 is no run under the primary order (2 ranks highest there) but is
      one under the alternate order, topped by 4. */
  lemma StraightTwoThreeFour(cards: seq<Card>)
    requires cards == [Card(Two, Spades), Card(Three, Hearts), Card(Four, Clubs)]
    ensures Classify(cards) == Ok(Combo(Straight, Four, 3))
  {
    var rs := RanksOf(cards);
    assert rs == [Two, Three, Four];
    assert !IsRun(Primary, rs) by {
      assert Key(Primary, rs[0]) == 12 && Key(Primary, rs[1]) == 0;
      assert rs[0] in rs && rs[1] in rs;
    }
    assert !HasKa2(rs) by {
      assert rs == [Two, Three, rs[2]];
    }
    RunOfThree(Alternate, rs);
    AlternateStraight(cards, Four);
  }

  /** A-2-3 is a straight topped by 3 under the alternate order. */
  lemma StraightAceTwoThree(cards: seq<Card>)
    requires cards == [Card(Ace, Spades), Card(Two, Hearts), Card(Three, Clubs)]
    ensures Classify(cards) == Ok(Combo(Straight, Three, 3))
  {
    var rs := RanksOf(cards);
    assert rs == [Ace, Two, Three];
    assert !IsRun(Primary, rs) by {
      assert Key(Primary, rs[0]) == 11 && Key(Primary, rs[2]) == 0;
      assert rs[0] in rs && rs[2] in rs;
    }
    assert !HasKa2(rs) by {
      assert rs == [Ace, Two, rs[2]];
    }
    RunOfThree(Alternate, rs);
    AlternateStraight(cards, Three);
  }

  /** 3-3-4 repeats a rank and is refused as an invalid straight. */
  lemma StraightThreeThreeFour(cards: seq<Card>)
    requires cards == [Card(Three, Spades), Card(Three, Hearts), Card(Four, Clubs)]
    ensures Classify(cards) == Err(InvalidStraight)
  {
    var rs := RanksOf(cards);
    assert rs == [Three, Three, Four];
    assert cards[0] in cards && cards[2] in cards;
    assert !Distinct(rs) by {
      assert rs[0] == rs[1];
    }
    ClassifyNoRun(cards);
  }

  /** 3-5-7 has distinct ranks with gaps under both orders and is refused as
      an invalid straight. */
  lemma StraightThreeFiveSeven(cards: seq<Card>)
    requires cards == [Card(Three, Spades), Card(Five, Hearts), Card(Seven, Clubs)]
    ensures Classify(cards) == Err(InvalidStraight)
  {
    var rs := RanksOf(cards);
    assert rs == [Three, Five, Seven];
    assert cards[0] in cards && cards[1] in cards;
    assert !IsRun(Primary, rs) && !IsRun(Alternate, rs) by {
      assert Three in rs && Seven in rs;
      assert Key(Primary, Seven) == Key(Primary, Three) + 4;
      assert Key(Alternate, Seven) == Key(Alternate, Three) + 4;
    }
    ClassifyNoRun(cards);
  }

  /** How often a rank occurs among the cards' ranks: once per suit it is held in. */
  lemma {:induction false} RankCount(a: seq<Card>, r: Rank)
    ensures multiset(RanksOf(a))[r] ==
      multiset(a)[Card(r, Spades)] + multiset(a)[Card(r, Hearts)] +
      multiset(a)[Card(r, Diamonds)] + multiset(a)[Card(r, Clubs)]
  {
    if |a| > 0 {
      var c := a[0];
      var t := a[1..];
      RankCount(t, r);
      var rs := RanksOf(a);
      assert rs[0] == c.rank && rs[1..] == RanksOf(t);
      CountFront(rs, r);
      CountFront(a, Card(r, Spades));
      CountFront(a, Card(r, Hearts));
      CountFront(a, Card(r, Diamonds));
      CountFront(a, Card(r, Clubs));
      if c.rank == r {
        match c.suit
        case Spades => assert c == Card(r, Spades);
        case Hearts => assert c == Card(r, Hearts);
        case Diamonds => assert c == Card(r, Diamonds);
        case Clubs => assert c == Card(r, Clubs);
      }
    }
  }

  /** Counting an element of a sequence by its first item and the rest. */
  lemma CountFront<T>(s: seq<T>, y: T)
    requires |s| > 0
    ensures multiset(s)[y] == multiset(s[1..])[y] + (if s[0] == y then 1 else 0)
  {
    assert s == [s[0]] + s[1..];
    assert multiset(s) == multiset{s[0]} + multiset(s[1..]);
  }

  /** Rearranging the cards leaves their rank multiset unchanged. */
  lemma RanksOfPermutation(a: seq<Card>, b: seq<Card>)
    requires multiset(a) == multiset(b)
    ensures multiset(RanksOf(a)) == multiset(RanksOf(b))
  {
    forall r ensures multiset(RanksOf(a))[r] == multiset(RanksOf(b))[r] {
      RankCount(a, r);
      RankCount(b, r);
    }
  }

  /** The classification depends only on the multiset of ranks: sorting
      happens before anything is inspected. */
  lemma ClassifyByRankMultiset(a: seq<Card>, b: seq<Card>)
    requires multiset(RanksOf(a)) == multiset(RanksOf(b))
    ensures Classify(a) == Classify(b)
  {
    assert |a| == |multiset(RanksOf(a))| == |multiset(RanksOf(b))| == |b|;
    SortByPermutation(Primary, RanksOf(a), RanksOf(b));
    SortByPermutation(Alternate, RanksOf(a), RanksOf(b));
    if |a| > 0 {
      assert Classify(a) == ClassifySorted(SortBy(Primary, RanksOf(a)), SortBy(Alternate, RanksOf(a)));
      assert Classify(b) == ClassifySorted(SortBy(Primary, RanksOf(b)), SortBy(Alternate, RanksOf(b)));
    }
  }

  /** Permuting the cards never changes the classification. */
  lemma ClassifyPermutation(a: seq<Card>, b: seq<Card>)
    requires multiset(a) == multiset(b)
    ensures Classify(a) == Classify(b)
  {
    RanksOfPermutation(a, b);
    ClassifyByRankMultiset(a, b);
  }

  // ---------------------------------------------------------------------
  // Beating the table.

  /** `canBeat(prev, next)`: may `next` be played onto the table holding `prev`? */
  function CanBeat(prev: Option<Combo>, next: Combo): (r: bool)
    ensures prev.None? ==> r
    ensures prev.Some? && next.kind != Quad ==>
              (r <==> && next.kind == prev.value.kind
                      && (next.kind == Straight ==> prev.value.len == next.len)
                      && RankValue(next.rank) > RankValue(prev.value.rank))
  {
    match prev
    case None => true
    case Some(p) =>
      if next.kind == Quad then
        if p.kind == Single && p.rank == Two then true
        else if p.kind == Pair && p.rank == Two then true
        else if p.kind == Quad then RankValue(next.rank) > RankValue(p.rank)
        else false
      else if p.kind != next.kind then false
      else if p.kind == Straight && p.len != next.len then false
      else RankValue(next.rank) > RankValue(p.rank)
  }

  /** A QUAD "cuts" a single 2 or a pair of 2s, tops a strictly lower QUAD,
      and beats nothing else. */
  lemma QuadBeats(p: Combo, q: Combo)
    requires q.kind == Quad
    ensures CanBeat(Some(p), q) <==>
      || ((p.kind == Single || p.kind == Pair) && p.rank == Two)
      || (p.kind == Quad && RankValue(q.rank) > RankValue(p.rank))
  {
  }

  /** No combination tops one of its own type and rank; beating is asymmetric. */
  lemma CanBeatAsymmetric(a: Combo, b: Combo)
    ensures a.kind == b.kind && a.rank == b.rank ==> !CanBeat(Some(a), b)
    ensures CanBeat(Some(a), b) ==> !CanBeat(Some(b), a)
  {
  }

  /** Beating is not transitive: a QUAD cuts a single 2, a single 2 tops a
      single ace, but a QUAD cannot be played on a single ace. */
  lemma CanBeatNotTransitive()
    ensures CanBeat(Some(Combo(Single, Ace, 1)), Combo(Single, Two, 1))
    ensures CanBeat(Some(Combo(Single, Two, 1)), Combo(Quad, Five, 4))
    ensures !CanBeat(Some(Combo(Single, Ace, 1)), Combo(Quad, Five, 4))
  {
  }
}

=== FILE: scoring.dfy ===
/** End-of-round scoring: the winner, each loser's loss, the pot, the Báo-1
    ("last card") override, and the resulting score sheet. */
module Scoring {
  import opened Base
  import opened Cards
  import opened Ledger

  /** The Sâm fields the scorer reads. */
  datatype SamInfo = SamInfo(active: bool, declaredBy: Option<PlayerId>, failed: bool)

  /** The Báo-1 fields the scorer reads. */
  datatype Bao1Info = Bao1Info(pid: Option<PlayerId>, offender: Option<PlayerId>, violated: bool, triggered: bool)

  /** `{ delta, winnerId }`. */
  datatype Scores = Scores(delta: map<PlayerId, int>, winner: Option<PlayerId>)

  /** A loser's flat loss when the Sâm declarer wins (counted as 20 cards). */
  const SamWinLoss: nat := 20
  /** Extra loss per 2 still held. */
  const TwoSurcharge: nat := 2
  /** Extra loss for never having played a card ("cóng"). */
  const NeverPlayedPenalty: nat := 10

  /** `playedAny[pid]`, where a missing entry is falsy. */
  predicate HasPlayed(playedAny: map<PlayerId, bool>, p: PlayerId) {
    p in playedAny && playedAny[p]
  }

  /** The first roster player with no cards left; failing that, the first
      roster player; `None` only for an empty roster. */
  function Winner(players: seq<PlayerId>, hands: map<PlayerId, seq<Card>>): (w: Option<PlayerId>)
    ensures w.None? <==> |players| == 0
    ensures w.Some? ==> w.value in players
    ensures forall i :: 0 <= i < |players| && HandOf(hands, players[i]) == [] ==>
              w.Some? && HandOf(hands, w.value) == [] &&
              IndexOf(players, w.value) <= i
    ensures (forall i :: 0 <= i < |players| ==> HandOf(hands, players[i]) != []) && |players| > 0 ==>
              w == Some(players[0])
  {
    var i := FindFirst(players, p => HandOf(hands, p) == []);
    if i < |players| then
      assert IndexOf(players, players[i]) <= i;
      Some(players[i])
    else if |players| > 0 then Some(players[0])
    else None
  }

  /** `isSamWin`: Sâm is active, its declarer won, and nobody caught them. */
  predicate IsSamWin(sam: SamInfo, w: Option<PlayerId>) {
    sam.active && sam.declaredBy == w && !sam.failed
  }

  /** One loser's loss. */
  function Loss(hand: seq<Card>, played: bool, samWin: bool): nat {
    if samWin then SamWinLoss
    else |hand| + TwoSurcharge * CountRank(hand, Two) + (if played then 0 else NeverPlayedPenalty)
  }

  /** Without a Sâm win a loss is at least one point per card held and at most
      three per card plus the never-played penalty; a Sâm win costs every
      loser exactly what an untouched ten-card hand without 2s costs. */
  lemma LossBounds(hand: seq<Card>, played: bool, samWin: bool)
    ensures !samWin ==> |hand| <= Loss(hand, played, samWin) <= 3 * |hand| + NeverPlayedPenalty
    ensures !samWin && played ==> Loss(hand, played, samWin) == |hand| + 2 * CountRank(hand, Two)
    ensures samWin ==> Loss(hand, played, samWin) == 20
    ensures |hand| == 10 && CountRank(hand, Two) == 0 && !played ==>
              Loss(hand, played, false) == Loss(hand, played, true)
  {
  }

  function LossOf(hands: map<PlayerId, seq<Card>>, playedAny: map<PlayerId, bool>, samWin: bool, p: PlayerId): nat {
    Loss(HandOf(hands, p), HasPlayed(playedAny, p), samWin)
  }

  /** `pot`: the losses summed over every roster entry that is not the winner. */
  function Pot(players: seq<PlayerId>, hands: map<PlayerId, seq<Card>>, playedAny: map<PlayerId, bool>,
               samWin: bool, w: Option<PlayerId>): nat
  {
    if |players| == 0 then 0
    else (if Some(players[0]) == w then 0 else LossOf(hands, playedAny, samWin, players[0]))
         + Pot(players[1..], hands, playedAny, samWin, w)
  }

  /** `applyBao1Penalty`. An empty roster with no Báo-1 player would give
      `winnerId === bao1.pid === null`; the model requires a winner. */
  predicate Bao1Override(b: Bao1Info, w: Option<PlayerId>) {
    b.triggered && b.violated && b.offender.Some? && w.Some? && w == b.pid
  }

  /** Every roster player at 0. */
  function Zeros(players: seq<PlayerId>): (z: map<PlayerId, int>)
    ensures z.Keys == set p | p in players
    ensures forall p :: p in z ==> z[p] == 0
  {
    map p | p in players :: 0
  }

  /** `computeRoundScores`. */
  function ComputeRoundScores(players: seq<PlayerId>, hands: map<PlayerId, seq<Card>>,
                              playedAny: map<PlayerId, bool>, bao1: Bao1Info, sam: SamInfo): (s: Scores)
    ensures s.winner.None? <==> |players| == 0
    ensures s.winner.Some? ==> s.winner.value in s.delta
    ensures !Bao1Override(bao1, s.winner) ==> s.delta.Keys == set p | p in players
    ensures Bao1Override(bao1, s.winner) ==>
              s.delta.Keys == (set p | p in players) + {bao1.offender.value}
    ensures !Bao1Override(bao1, s.winner) ==>
              forall p :: p in s.delta && Some(p) != s.winner ==> s.delta[p] <= 0
    ensures s.winner.Some? && (!Bao1Override(bao1, s.winner) || bao1.offender != s.winner) ==>
              s.delta[s.winner.value] >= 0
  {
    var w := Winner(players, hands);
    var samWin := IsSamWin(sam, w);
    var pot: int := Pot(players, hands, playedAny, samWin, w);
    if Bao1Override(bao1, w) then
      Scores(Zeros(players)[w.value := pot][bao1.offender.value := -pot], w)
    else
      Scores(map p | p in players :: if Some(p) == w then pot else -(LossOf(hands, playedAny, samWin, p) as int), w)
  }

  /** Without the Báo-1 override each loser pays their own loss: the flat 20
      on a Sâm win, otherwise cards held plus 2 per 2 held plus 10 if they never
      played; the winner collects the pot, the sum of those losses. */
  lemma NormalScores(players: seq<PlayerId>, hands: map<PlayerId, seq<Card>>,
                     playedAny: map<PlayerId, bool>, bao1: Bao1Info, sam: SamInfo, p: PlayerId)
    requires p in players
    requires var s := ComputeRoundScores(players, hands, playedAny, bao1, sam);
             !Bao1Override(bao1, s.winner)
    ensures var s := ComputeRoundScores(players, hands, playedAny, bao1, sam);
            var hand := HandOf(hands, p);
            && (Some(p) != s.winner && IsSamWin(sam, s.winner) ==> s.delta[p] == -20)
            && (Some(p) != s.winner && !IsSamWin(sam, s.winner) ==>
                  s.delta[p] == -(|hand| + 2 * CountRank(hand, Two) + (if HasPlayed(playedAny, p) then 0 else 10)))
            && (Some(p) == s.winner ==> s.delta[p] == Pot(players, hands, playedAny, IsSamWin(sam, s.winner), s.winner))
  {
  }

  /** With the override the winner collects the pot, the offender alone pays
      it, and everybody else is unaffected. */
  lemma Bao1Scores(players: seq<PlayerId>, hands: map<PlayerId, seq<Card>>,
                   playedAny: map<PlayerId, bool>, bao1: Bao1Info, sam: SamInfo)
    requires bao1.offender != bao1.pid
    requires var s := ComputeRoundScores(players, hands, playedAny, bao1, sam);
             Bao1Override(bao1, s.winner)
    ensures var s := ComputeRoundScores(players, hands, playedAny, bao1, sam);
            var w := s.winner.value;
            var pot: int := Pot(players, hands, playedAny, IsSamWin(sam, s.winner), s.winner);
            && s.delta[w] == pot
            && s.delta[bao1.offender.value] == -pot
            && forall p :: p in s.delta && p != w && p != bao1.offender.value ==> s.delta[p] == 0
  {
  }

  // ---------------------------------------------------------------------
  // The score sheet is zero-sum.

  /** Summing the normal-path sheet over a duplicate-free part of the roster:
      the winner's pot if the winner is in that part, minus that part's losses. */
  lemma {:induction false} NormalSheetSum(delta: map<PlayerId, int>, ks: seq<PlayerId>,
                                          hands: map<PlayerId, seq<Card>>, playedAny: map<PlayerId, bool>,
                                          samWin: bool, w: Option<PlayerId>, pot: int)
    requires Distinct(ks)
    requires forall k :: k in ks ==> k in delta
    requires forall k :: k in delta ==> delta[k] == if Some(k) == w then pot else -(LossOf(hands, playedAny, samWin, k) as int)
    ensures SumAt(delta, ks) == (if w.Some? && w.value in ks then pot else 0) - Pot(ks, hands, playedAny, samWin, w)
  {
    if |ks| > 0 {
      var t := ks[1..];
      assert ks == [ks[0]] + t;
      assert ks[0] !in t by {
        forall a | 0 <= a < |t| ensures t[a] != ks[0] {
          assert t[a] == ks[a + 1];
        }
      }
      assert Distinct(t) by {
        forall a, b | 0 <= a < b < |t| ensures t[a] != t[b] {
          assert t[a] == ks[a + 1] && t[b] == ks[b + 1];
        }
      }
      assert ks[0] in ks;
      NormalSheetSum(delta, t, hands, playedAny, samWin, w, pot);
    }
  }

  /** A sheet of zeros sums to zero. */
  lemma {:induction false} ZerosTotal(z: map<PlayerId, int>)
    requires forall k :: k in z ==> z[k] == 0
    ensures Total(z) == 0
    decreases z.Keys
  {
    if z.Keys != {} {
      var k :| k in z;
      TotalRemove(z, k);
      ZerosTotal(z - {k});
    }
  }

  /** The override sheet: zeros, the pot to the winner, minus the pot to a
      different offender. */
  lemma OverrideSheetTotal(players: seq<PlayerId>, w: PlayerId, o: PlayerId, pot: int)
    requires w in players && o != w
    ensures Total(Zeros(players)[w := pot][o := -pot]) == 0
  {
    var z := Zeros(players);
    ZerosTotal(z);
    var z1 := z[w := pot];
    assert z1 == Credit(z, w, pot);
    TotalCredit(z, w, pot);
    assert z1[o := -pot] == Credit(z1, o, -pot);
    TotalCredit(z1, o, -pot);
  }

  /** The deltas of a round sum to zero on a duplicate-free roster, provided
      the Báo-1 offender is not the Báo-1 player (the winner, on the override
      path). */
  lemma ScoresZeroSum(players: seq<PlayerId>, hands: map<PlayerId, seq<Card>>,
                      playedAny: map<PlayerId, bool>, bao1: Bao1Info, sam: SamInfo)
    requires Distinct(players)
    requires bao1.offender.None? || bao1.offender != bao1.pid
    ensures Total(ComputeRoundScores(players, hands, playedAny, bao1, sam).delta) == 0
  {
    var s := ComputeRoundScores(players, hands, playedAny, bao1, sam);
    var w := s.winner;
    var samWin := IsSamWin(sam, w);
    var pot: int := Pot(players, hands, playedAny, samWin, w);
    if Bao1Override(bao1, w) {
      OverrideSheetTotal(players, w.value, bao1.offender.value, pot);
    } else if |players| > 0 {
      TotalIsSumAt(s.delta, players);
      NormalSheetSum(s.delta, players, hands, playedAny, samWin, w, pot);
    }
  }
}
